=== FILE: README.md ===
# Crowd evacuation core, modelled in Dafny

A classroom-evacuation simulation moves a crowd of agents through a
rectangular room. There are desks to walk around and exits in the walls. This
project models the deterministic per-tick logic of that simulation and
proves properties of it:

- **Agents** (`agent.dfy`, module `Agents`). Each panicking agent has four
  steering behaviours: alignment, cohesion, separation and steering to the
  exit. All of them read the cached distance table. There is also the panic
  recurrence, the switch between herding and seeking, the speed-capped
  velocity update, and one tick's in-place flock-then-update pass over the
  crowd.
- **Plain boids** (`boid.dfy`, module `Boids`). These come from
  boid_agent.py and the `Boid` class of boids.py. They use the same
  steering with freshly measured distances, no panic and no mode switch.
- **The prototype's box handling** (`boxed_boids.dfy`, module
  `BoxedBoids`). This is `Boid.edges` and the two-pass `resolve_positions`
  of boids.py: a clamp, then a pairwise overlap split and a re-clamp.
- **Per-tick bookkeeping** (`simulation.dfy`, module `Simulation`). This
  covers three pieces:
  - the per-agent position resolver of simulation.py: exit exemption, box
    clamp, big-obstacle push-out and the displacement cap;
  - the symmetric, box-pruned distance cache with its -1 sentinel;
  - the escape split of the agent list.
- **Subgoal navigation** (`subgoals.dfy`, module `Subgoals`, over the
  rectangles of `obstacle.dfy`, module `Obstacles`). This is
  `find_subgoal` with its early return, nearest-centre choice and stuck
  fallback, plus `am_i_stuck`.
- **Metrics** (`metrics.dfy`, module `Metrics`). These are the per-agent
  counters, escape flags and panic histories, with the summary statistics.

`geometry.dfy` (module `Geometry`) holds 2-D real vectors and pygame's
vector operations. `arena.dfy` (module `Arena`) holds the box clamp both
resolvers share. `wrappers.dfy` (module `Wrappers`) holds `Option` and
`Result`.

Euclidean length needs a square root, which Dafny's reals do not have. So
every member that measures a vector takes the length function `len` as a
parameter, together with `IsLength(len)`. That predicate says `len` is a
norm:

- non-negative;
- zero exactly on the zero vector;
- `|k|`-homogeneous;
- satisfies the triangle inequality.

Normalising, `scale_to_length` and the recurring force cap are defined once
from it (`Geometry.Normalize`, `Geometry.ScaleToLength`, `Geometry.Limit`).

Each Python exception becomes the error half of a `Result`, or a
precondition where the program has no handler and the caller must avoid it:

- pygame's `ValueError` on normalising a zero vector;
- the `KeyError` of a missing subgoal stage;
- the `ValueError` of a bad agent id;
- `max` of an empty list.

Constants that constants.py defines are Dafny constants. Those it leaves
undefined are parameters (`Agents.World`, `Simulation.Config`,
`Subgoals.Navigation`). This applies to `AGENT_RADIUS`, `AGENT_COUNT`,
`ENV_LENGTH`, `EXITS`, `BIG_OBSTACLE_W`/`_H`, `AGENT_AVG_SPEED`,
`SUBGOAL_ZONES` and `BASE_ZONE`. The resolver's box is different: it
arrives as the parameters of `resolve_positions` (simulation.py:49), so it
is a field of `Simulation.Config`. The escape test reads `BOX_TOP` and
`BOX_HEIGHT` directly (simulation.py:210-213), so `Simulation.Escaped`
uses `Arena.BoxTop` and `Arena.BoxHeight`.

Each steering behaviour names what it steers toward as a function of its
own (`AlignDesired`, `CohereDesired`, `SeparateDesired`, `ExitDesired`):
full speed along the mean velocity, toward the centre, along the mean
push, or toward the exit's middle. The behaviour's contract then says that
the steering is a non-negative multiple of that desired velocity minus the
agent's own (`Geometry.SteersToward`), within the force cap, and exactly
the weighted difference when that is within the cap.

Four members are plain definitions with no contract of their own that
says what they mean; the lemma in brackets states it:
`Simulation.Escaped` (`Simulation.SelectMembership`),
`BoxedBoids.PushApart` (`BoxedBoids.PushApartSeparates`),
`Agents.TurnAt` (`Agents.TurnAtOutcome`) and `Subgoals.Scan`
(`Subgoals.ScanMeetsSpec`). Scan's own contract says only that a reached
stage carries a target.

Some behaviour of the code is easy to misread, so it is stated here:

- Panic is clamped below at 0 but not above at 1 (agent.py:57-60).
  `Agents.PanicNotClampedAbove` exhibits a panic of 1.5.
- The new panic term is the mean of the alignment and exit terms only
  (agent.py:55). `cohere` reports no panic term.
- `update` adds the acceleration to the velocity, caps the speed and then
  moves (agent.py:42-45). Panic plays no part in it.
- The subgoal stages are looked up by indicator with no fallback
  (subgoals.py:14). An indicator with no stage is a lookup failure.
- simulation.py's resolver treats each agent on its own (simulation.py:58-104).
  There is no pairwise overlap pass.
- The resolver pushes agents out only of obstacles of exactly the big
  obstacle's size (simulation.py:81). It treats the two axes independently
  (simulation.py:85-94), not along the smaller penetration.
- `align` and `cohere` normalise the mean vector unguarded
  (agent.py:87, agent.py:109), so a zero vector raises.
- In `resolve_positions` of boids.py, a coincident pair divides by a zero
  distance (boids.py:50). Both positions become NaN, are never in the exit
  area, and the re-clamp `max(lo, min(nan, hi))` gives `lo` on both axes
  (boids.py:58-64). So both end on the inset box's top-left corner
  `(box_left + r, box_top + r)`; `BoxedBoids.NaNCorner` is that point.

## Model

| member | source | states |
|---|---|---|
| Geometry.Normalize | agent.py:87 | a non-zero vector normalises to length 1 in the same direction; the zero vector is excluded because pygame raises on it |
| Geometry.ScaleToLength | agent.py:44 | `scale_to_length(l)` of a non-zero vector has length exactly `l` and keeps the direction |
| Geometry.Limit | agent.py:90-91 | the force cap: the result is never longer than the cap, is the input when that is short enough, and otherwise has exactly the cap's length along the input's direction |
| Geometry.NormalizeOrZero | agent.py:128-129 | the guarded normalise keeps the zero vector and turns any other vector into a unit vector along it |
| Geometry.AtSpeed | agent.py:128-129 | the guarded `normalize() * speed`: the zero vector stays zero; any other vector becomes exactly `speed` long along itself |
| Geometry.Steer | agent.py:129-133 | desired minus current velocity, weighted, is returned as is when within `max_force`; over the cap it is rescaled to exactly `max_force` along itself; either way it is a non-negative multiple of desired minus current velocity |
| Geometry.ThreeForces | agent.py:70-72 | applying three forces each within `m` changes the acceleration by at most `3m` |
| Geometry.FourForces | boid_agent.py:40-43 | applying four forces each within `m` changes the acceleration by at most `4m` |
| Geometry.UpdateVelocity | agent.py:42-44 | the new velocity is `v + a` when that is within `max_speed`, otherwise exactly `max_speed` long in its direction; never faster than `max_speed` |
| Obstacles.FloorHalf | obstacle.py:9 | `n // 2` is the floor of the half: `2q <= n < 2q + 2` |
| Obstacles.Center | obstacle.py:9 | the centre has integral coordinates and lies at the floor of the midpoint on each axis |
| Obstacles.CenterCovered | obstacle.py:9 | a rectangle of non-negative size contains its own centre |
| Obstacles.AwayFromObst | obstacle.py:11-13 | the vector leads from the centre (not the nearest edge) to the agent; its length is non-negative and zero exactly when the agent sits on the centre |
| Arena.Clamp | simulation.py:76-77 | each coordinate below the inset box goes to its low edge, one above it goes to its high edge (when the box is at least `2r` across on that axis), and one within it stays; the result always lies inside the inset box |
| Arena.ClampIdempotent | boids.py:59-60 | re-clamping a clamped position changes nothing |
| Subgoals.Waypoint | subgoals.py:32-37 | inside the zone's x span: the agent's x with the centre's y; otherwise, inside the y span: the centre's x with the agent's y; otherwise the centre itself; in every case the waypoint lies in the zone |
| Subgoals.AmIStuck | subgoals.py:47-56 | never stuck at stage 0; otherwise stuck exactly when one of the two diagonal body corners is in the base zone |
| Subgoals.FindSubgoal | subgoals.py:14 | an indicator with no stage is a lookup failure, with no fallback; a reached result always carries a target |
| Subgoals.StagesShrink | subgoals.py:30 | the stuck recursion to `indicator - 1` strictly shrinks the set of stages at or below the indicator, so it terminates |
| Subgoals.FirstInside | subgoals.py:21-26 | reference definition: the index of the first zone fully containing the padded body, with no earlier zone containing it |
| Subgoals.NearestAmong | subgoals.py:38-42 | reference definition: the zone whose centre is nearest, strictly nearer than every earlier zone (ties go to the earliest) |
| Subgoals.NearestUnique | subgoals.py:40-42 | any index that is nearest with ties to the earliest is the one `NearestAmong` picks |
| Subgoals.BestStep | subgoals.py:40-42 | one loop step updates `min_distance`/`target` to the nearest zone seen so far |
| Subgoals.ScanFrom | subgoals.py:21-44 | from any zone before the first containing one, the rest of the loop yields the stage's reference result |
| Subgoals.ScanMeetsSpec | subgoals.py:18-44 | the whole loop equals the reference: the first containing zone as reached, else the nearest zone's target not reached, else `None` |
| Subgoals.FirstContainingZoneWins | subgoals.py:25-26 | the first zone in list order that contains the agent is returned as reached with its centre, even when another zone is nearer |
| Subgoals.WaypointOfNearestZone | subgoals.py:31-44 | an agent in no zone and not stuck gets the waypoint of the nearest zone, not reached, and `None` for a stage without zones |
| Subgoals.StuckFallsBack | subgoals.py:29-30 | a stuck agent in no zone takes the previous stage's target with its reached flag dropped; that lookup's failure is the call's failure |
| Subgoals.DependsOnLowerStagesOnly | subgoals.py:52-53 | for a non-negative indicator the result depends only on stages `0..indicator`: the recursion only descends and stops at stage 0 |
| Agents.NewAgent | agent.py:16-33 | avoid `2R+2`, cohesion `8R`, alignment `4R`, ease `10R`; perception is the largest of the three radii; panic, `avg_panic_around` and acceleration start at 0; every cached distance starts at -1 |
| Agents.PerceptionRadius | agent.py:22-25 | perception is the cohesion radius when `3R >= 1`, the avoid radius otherwise |
| Agents.Neighbours | agent.py:79-83 | exactly the other agents whose cached distance is known (not -1) and strictly below the radius, in strictly increasing index order, so each is counted once in `total` |
| Agents.PanicSum | agent.py:102 | the sum of non-negative panic levels is non-negative |
| Agents.MeanNeighbourPanic | agent.py:105-106 | the neighbours' mean panic times their number is their panic sum, and it is non-negative when all panic is |
| Agents.RelativeExcess | agent.py:86 | `1/scale * (value - reference)` is positive exactly when `value` exceeds `reference` and zero exactly when they are equal |
| Agents.AlignDesired | agent.py:85-87 | the desired velocity is exactly `max_speed` long along the neighbours' mean velocity |
| Agents.Align | agent.py:75-92 | the steering is within `max_force`; with no neighbour it is the zero vector with panic 0; otherwise it steers toward `AlignDesired` with weight 1.5, and the panic term is the neighbours' mean speed minus the agent's own, relative to `max_speed` |
| Agents.NeighbourhoodPanic | agent.py:97-106 | `avg_panic_around` becomes the cohesion neighbours' mean panic, is left alone when there is none, and stays non-negative |
| Agents.CohereDesired | agent.py:107-109 | the desired velocity is exactly `max_speed` long toward the neighbours' centre |
| Agents.Cohere | agent.py:94-114 | the steering is within `max_force` and zero with no neighbour; otherwise it steers toward `CohereDesired` with weight 1.5; the panic it reports is the neighbourhood's mean panic |
| Agents.SeparateDesired | agent.py:126-129 | the desired velocity is zero when the mean push is zero, and otherwise exactly `max_speed` long along the mean push |
| Agents.Separate | agent.py:116-134 | the steering is within `max_force` and zero when no agent is within the avoid radius; otherwise it steers toward `SeparateDesired` with weight 2.5 |
| Agents.ExitDesired | agent.py:137-140 | the desired velocity is zero at the exit's middle, and otherwise, for a positive `max_speed`, exactly `max_speed` long toward it |
| Agents.SteerToExit | agent.py:136-146 | the steering is within `max_force` and steers toward `ExitDesired` with weight 6.5; the panic term is the distance to the exit's middle beyond the ease distance, relative to `ENV_LENGTH` |
| Agents.NextPanic | agent.py:55-60 | the new panic is never negative, and is the old panic averaged with the mean of the alignment and exit terms whenever that is positive |
| Agents.PanicExample | agent.py:55-60 | panic 0.4 with a new term of 0.8 becomes 0.6 |
| Agents.PanicNotClampedAbove | agent.py:57-60 | panic can exceed 1: nothing clamps it above |
| Agents.Flock | agent.py:48-72 | only acceleration, panic and `avg_panic_around` change; at new panic `>= 0.5` only cohesion is applied and panic becomes `avg_panic_around`; otherwise alignment, separation and exit steering are applied and panic is the new panic |
| Agents.FlockForceBound | agent.py:66-72 | one `flock` changes the acceleration by at most three force caps |
| Agents.FlockKeepsPanicNonNegative | agent.py:57-60 | panic and `avg_panic_around` stay non-negative through `flock` when they were before |
| Agents.Update | agent.py:40-46 | the velocity becomes `v + a` when that is within `max_speed`, and otherwise is rescaled to exactly `max_speed` along `v + a`; the position moves by exactly the new velocity, the acceleration is cleared, and no other field changes |
| Agents.Turn | simulation.py:242-244 | one agent's flock then update keeps its identity; its velocity is the flocked velocity plus acceleration when within `max_speed` and exactly `max_speed` long otherwise; its acceleration is cleared, and its panic stays non-negative when every agent's was |
| Agents.FlockAndUpdate | simulation.py:242-244 | the result is `AfterTurns` over the whole crowd, the in-place pass in list order; on success every agent keeps its identity, has speed at most `max_speed` and cleared acceleration, and keeps non-negative panic when all panic started so |
| Agents.AfterTurns | simulation.py:242-244 | the crowd after the first `k` turns: agent `m` flocks and updates among agents `0 .. m-1` already moved and the rest not yet moved; the crowd keeps its size, and the first undefined turn ends the pass |
| Agents.TickOutcome | simulation.py:242-244 | a completed tick reached every turn and each was defined; a failed tick names an agent whose turn was reached and undefined, and every earlier turn was reached and defined, so it names the first undefined turn |
| Agents.FailureNamesFirstUndefined | simulation.py:242-244 | a failed tick's error index is below the crowd size, its turn was reached and undefined, and every earlier turn was reached and defined |
| Agents.TickPrefix | simulation.py:242-244 | a tick that gets through `n` turns reached each earlier turn, and each was defined |
| Agents.TurnAtOutcome | simulation.py:243-244 | one turn fails only with the error naming its own agent; it succeeds exactly when that agent's `align` and `cohere` are defined, and then replaces only that agent by its flock-then-update |
| Agents.TickStepDefined | simulation.py:243-244 | on a crowd of agents, the tick's step for agent `k` goes through exactly when that agent's turn is defined, and otherwise fails naming `k` |
| Agents.TickKeepsMoved | simulation.py:242-244 | every crowd the tick passes through keeps each agent's identity, has its first `k` agents moved (speed capped, acceleration cleared), and keeps panic non-negative when it started so |
| Agents.RunFold | simulation.py:242-244 | the loop over the agents computes the fold, stopping at the first turn that raises |
| Agents.FoldFailureSticks | simulation.py:242-244 | once a turn has raised, the rest of the tick does not run and the tick's result is that error |
| Boids.Within | boid_agent.py:50-53 | exactly the other boids strictly closer than the radius, in strictly increasing index order, so each is counted once in `total` |
| Boids.AlignDesired | boid_agent.py:55-56 | the desired velocity is exactly 3 long along the flockmates' mean velocity |
| Boids.Align | boid_agent.py:47-60 | the steering is within 0.3, and zero with no flockmate within `R * 4`; otherwise it steers toward `AlignDesired` with weight 1 |
| Boids.CohereDesired | boid_agent.py:70-72 | the desired velocity is exactly 3 long toward the flockmates' centre |
| Boids.Cohere | boid_agent.py:62-76 | the steering is within 0.3, and zero with no flockmate within `R * 4`; otherwise it steers toward `CohereDesired` with weight 1 |
| Boids.SeparateDesired | boid_agent.py:87-89 | the desired velocity is zero when the mean push is zero, and otherwise exactly 3 long along the mean push |
| Boids.Separate | boid_agent.py:78-95 | the steering is within 0.3, and zero with no boid within `2R`; otherwise it steers toward `SeparateDesired` with weight 1 |
| Boids.ExitDesired | boid_agent.py:98-101 | the desired velocity is zero at the exit's middle, and otherwise exactly 3 long toward it |
| Boids.SteerToExit | boid_agent.py:97-105 | the steering is within 0.3 and steers toward `ExitDesired` with weight 1 |
| Boids.Flock | boid_agent.py:33-43 | all four behaviours are always added to the acceleration; nothing else changes |
| Boids.FlockForceBound | boid_agent.py:33-43 | one `flock` changes the acceleration by at most four force caps |
| Boids.Update | boid_agent.py:25-31 | the velocity becomes `v + a` when that is within 3, and otherwise is rescaled to exactly 3 along `v + a`; the position moves by exactly the new velocity, and the acceleration is cleared |
| BoxedBoids.PrototypeRadii | boids.py:77 | the prototype perceives within 60 pixels and separates within 30 |
| BoxedBoids.Edges | boids.py:79-93 | on each axis exactly one of three cases: below the low margin, the coordinate is set to it and that velocity component negated; above the high margin (the right wall only outside the exit span), the same at the high margin; otherwise both stay; the acceleration never changes |
| BoxedBoids.EdgesIdempotent | boids.py:79-93 | a second bounce changes nothing |
| BoxedBoids.Confine | boids.py:31-36 | a position in the exit area stays, every other one is clamped |
| BoxedBoids.ConfineSettles | boids.py:31-36 | confining leaves every position settled, and a settled position unchanged |
| BoxedBoids.PushApartSeparates | boids.py:48-52 | an overlapping pair split along its separating line keeps its midpoint and its direction and ends exactly `2r` apart |
| BoxedBoids.Confined | boids.py:27-38 | pass 1 confines each position on its own: the exit area is exempt, every other position is clamped, and an already settled list is unchanged |
| BoxedBoids.NaNCorner | boids.py:50-64 | a coincident pair's NaN positions are re-clamped to the inset box's top-left corner `(box_left + r, box_top + r)`, which is settled |
| BoxedBoids.Visit | boids.py:43-64 | visiting pair `(i, j)` moves only positions `i` and `j`, keeps the length, and keeps a settled list settled |
| BoxedBoids.VisitOutcome | boids.py:45-64 | a pair at least `2r` apart is left alone; a coincident pair goes to the NaN corner; an overlapping pair that needs no re-clamp ends exactly `2r` apart with its midpoint kept |
| BoxedBoids.RunPairs | boids.py:41-42 | the two nested loops visit every pair `i < j` in order, each visit seeing the positions the earlier ones left |
| BoxedBoids.PairsKeep | boids.py:41-64 | a property every visit keeps holds after the whole of pass 2 |
| BoxedBoids.PairsFixed | boids.py:41-48 | positions no visit moves come through pass 2 unchanged |
| BoxedBoids.VisitKeepsSettled | boids.py:54-64 | every visit keeps the list's length and keeps a settled list settled |
| BoxedBoids.VisitKeepsSeparated | boids.py:48 | no visit moves a list whose positions are pairwise at least `2r` apart |
| BoxedBoids.ResolvePositions | boids.py:22-66 | the result is pass 2, every pair `i < j` visited in the loops' order (`Pairs` of `Visit`), applied to pass 1's confined positions (`Confined`); it has one position per input, all settled; positions already settled and `2r` apart come back unchanged |
| Simulation.PushOut | simulation.py:80-94 | only a big obstacle's inflated rectangle acts; a coordinate left (above) of the obstacle goes to `left - r` (`top - r`), right (below) to `left + width + r` (`top + height + r`), and one within the span stays; the axes are independent |
| Simulation.PushOutReachesBoundary | simulation.py:82-94 | a push-out that moves the agent leaves it on the boundary of the inflated rectangle (`OnInflatedEdge`); an agent in a big obstacle's inflated band outside the obstacle always ends on that boundary; an agent inside the obstacle itself is not moved |
| Simulation.PushOutAll | simulation.py:80-94 | an agent outside every inflated big obstacle is not moved by the obstacle pass |
| Simulation.CapDisplacement | simulation.py:96-104 | a correction longer than `AGENT_AVG_SPEED` is shortened to exactly that length along the same direction; a shorter one is applied as is |
| Simulation.Correct | simulation.py:62-94 | an agent in an exit window keeps its position; any other is clamped into the box and then pushed out of big obstacles |
| Simulation.ResolveOne | simulation.py:58-104 | one agent's resolved position moves at most the cap, and is the corrected position whenever that is within the cap |
| Simulation.ExemptUnchanged | simulation.py:62-74 | an agent near an exit on the top or bottom wall, within the exit's x span, is returned unchanged |
| Simulation.SettledUnchanged | simulation.py:74-94 | an agent inside the inset box and outside every inflated big obstacle is returned unchanged |
| Simulation.ResolvePositions | simulation.py:49-106 | one position per input, in order, each resolved alone and displaced by at most `AGENT_AVG_SPEED` |
| Simulation.ResolveIsLocal | simulation.py:58-104 | each output depends only on that agent's own input: there is no pairwise pass |
| Simulation.Truncate | simulation.py:117 | a distance stored in the integer table is truncated: a non-negative integer within 1 below the distance |
| Simulation.CachedDistance | simulation.py:116-131 | an entry is -1 exactly for the agent itself and for a pruned pair, and a non-negative integer otherwise |
| Simulation.CachedDistanceSymmetric | simulation.py:130-131 | the entry is the same from either side of the pair |
| Simulation.RecordDistances | simulation.py:108-131 | every active agent's table has `AGENT_COUNT` entries; ids of absent agents stay -1; with distinct ids each entry is the pair's cached distance and the table is symmetric; nothing else about the agents changes |
| Simulation.StorePair | simulation.py:120-131 | visiting pair `(i, j)` extends the filled part of the table by that pair |
| Simulation.TableComplete | simulation.py:119-131 | once every pair is visited, every entry is the pair's cached distance and equals its mirror entry |
| Simulation.Select | simulation.py:207-232 | each list holds only agents whose escape test gives that list's answer |
| Simulation.SplitIsPartition | simulation.py:207-232 | every agent lands in exactly one of the dropped-out and kept lists |
| Simulation.SelectAppend | simulation.py:207-232 | the split keeps list order |
| Simulation.SelectMembership | simulation.py:207-232 | an agent is dropped exactly when it is within `epsilon` of the top or bottom wall within some exit's x span, and kept exactly otherwise |
| Metrics.Init | metrics.py:7-11 | `n` counters at `initial_tick`, `n` empty panic histories, `n` cleared escape flags |
| Metrics.IncrementTick | metrics.py:13-16 | exactly the agents not escaped gain one tick; escaped agents' counters and all else are unchanged |
| Metrics.RecordAgentEscape | metrics.py:18-20 | a flag is set afterwards exactly when it was set before or the agent is listed; no flag is cleared |
| Metrics.UpdatePanicLevels | metrics.py:22-25 | each history of an agent still inside gains exactly that agent's listed panic levels, in order; escaped agents' histories are unchanged |
| Metrics.UnlistedNoSamples | metrics.py:22-25 | an agent not in the list gains no panic sample |
| Metrics.GetLastTickOfAgent | metrics.py:28-32 | succeeds exactly for `0 <= id < n` with that agent's counter, and fails with the id otherwise |
| Metrics.LastTick | metrics.py:34-36 | the largest counter, at least every counter; fails exactly when there are no agents |
| Metrics.Average | metrics.py:39 | the mean times the length is the sum, and an empty history averages 0 |
| Metrics.AverageBetween | metrics.py:39 | a non-empty history's mean lies within any bounds of its samples |
| Metrics.CalculateAveragePanic | metrics.py:38-39 | one mean per agent, 0 for an empty history |
| Metrics.AveragePanicNonNegative | metrics.py:38-39 | a history of non-negative panic has a non-negative mean |
| Metrics.EscapeTimes | metrics.py:42 | `valid_times` has one entry per escaped agent, in id order: entry `k` is the counter of the `k`-th escaped id, so equal counters are all kept; it is empty exactly when nobody escaped |
| Metrics.EscapedIds | metrics.py:42 | the escaped ids below `n`, in strictly increasing order: exactly the agents whose flag is set, each once |
| Metrics.EscapeTimesSum | metrics.py:47 | `sum(valid_times)` is the sum of the escaped agents' counters, id by id |
| Metrics.MeanEscapeTime | metrics.py:47 | the mean of `valid_times` times the number of escaped agents is the sum of their counters |
| Metrics.Insert | metrics.py:48 | inserting into a sorted list keeps it sorted and adds exactly that element |
| Metrics.Sort | metrics.py:48 | the sorted order of the times is sorted and a permutation of them |
| Metrics.Median | metrics.py:48 | the median lies between the smallest and the largest time |
| Metrics.MiddleSplits | metrics.py:48 | in a sorted list the lower half is at or below the middle and the upper half at or above it |
| Metrics.MedianSplits | metrics.py:48 | half of the sorted times lie at or below the median and half at or above |
| Metrics.CalculateEscapeStatistics | metrics.py:41-50 | `None` exactly when nobody escaped; otherwise min and max are attained by escaped agents and bound every escaped agent's time, the mean and median lie between them, and the mean times the number of escaped agents is the sum of their counters |

## Left out

- Rendering, the pygame event loop, colours and the clock are presentation. This includes `draw`, the panic colour at agent.py:61-64, and the script-level loop of boids.py.
- `Simulation.main_loop` is not modelled as a whole. Its `Agent` and `flock` calls do not match agent.py, and `run_name`/`show_plots` are undefined. Only its pieces are modelled: the escape split, the in-place flock/update order (`Agents.FlockAndUpdate`), the distance cache and the resolver.
- Plotting and CSV output are file and plot I/O: metrics.py:52-102, simulation.py:276-296 and main.py's experiment sweeps.
- Random initial velocity, `max_speed` and start positions are parameters of `Agents.NewAgent`, constrained to the ranges the program draws from.
- Floating point is modelled as exact `real` arithmetic. Euclidean length is the abstract norm `len`, so no property here depends on rounding. The one NaN the modelled code produces, a coincident pair in boids.py's `resolve_positions`, is written out as where it ends (`BoxedBoids.NaNCorner`).
- `Obstacle.is_in`, which obstacle.py does not define, is the parameter `isIn` of `Subgoals.AmIStuck`.
- constants.py's missing names (`AGENT_RADIUS`, `AGENT_COUNT`, `ENV_LENGTH`, `EXITS`, `SUBGOAL_ZONES`, `BASE_ZONE`, `BIG_OBSTACLE_W`/`_H`, `AGENT_AVG_SPEED`) are parameters.
- Boids.Align, Boids.Cohere and Boids.Separate require `AlignDefined`, `CohereDefined` and `SeparateDefined`. pygame raises `ValueError` on normalising a zero vector (boid_agent.py:56, boid_agent.py:72), and `separate` divides by each crowder's distance (boid_agent.py:85), which raises `ZeroDivisionError` for a boid on the same spot. Nothing in boid_agent.py handles these, so the model has no error path for plain boids; `Boids.Flock` carries the three requirements.
- Metrics.RecordAgentEscape and Metrics.UpdatePanicLevels require every listed id below `n`, because an id outside the lists raises `IndexError` in Python. Negative ids cannot occur, because ids are natural numbers.
- Agents.Align and Agents.Cohere require a non-zero vector to normalise (`AlignDefined`, `CohereDefined`), because pygame raises there. `Agents.FlockAndUpdate` checks them per turn and reports the first agent that fails them as `CannotNormalizeZero(index)`.
- Subgoals.FindSubgoal makes the stuck fallback lookup once, at the first zone, rather than at every zone the loop passes. Every such lookup returns the same value, so the result is the same.
- Obstacles.Rect has integer fields. obstacle.py:4-9 stores whatever it is given, and the sizes come from names constants.py does not define (`OBSTACLE_WIDTH`, `CORR_WIDTH`, `SCALING`, `SUBGOAL_ZONES`), so rectangles are assumed to be given in whole pixels; `Obstacles.Center`'s integral centre rests on that.
- `apply_force` is the vector addition inside `Agents.Flock` and `Boids.Flock`, not a separate member.

=== FILE: agent.dfy ===
/** The panicking agent of agent.py: four steering behaviours over the
    cached distance table, the panic recurrence and the herding switch, and
    the velocity update. */
module Agents {
  import opened Geometry
  import opened Wrappers
  import opened Arena

  /** `AGENT_MAX_FORCE` and `AGENT_MAX_SPEED` of constants.py. */
  const AgentMaxForce: real := 0.3
  const AgentMaxSpeed: real := 3.0

  /** Steering weights. */
  const AlignWeight: real := 1.5
  const CohereWeight: real := 1.5
  const SeparateWeight: real := 2.5
  const ExitWeight: real := 6.5

  /** The panic level at which an agent switches to herding. */
  const HerdingThreshold: real := 0.5

  /** The `+ 0.00000000001` that keeps the separation divisor non-zero. */
  const SeparationEpsilon: real := 0.00000000001

  /** `AGENT_RADIUS`, `AGENT_COUNT` and `ENV_LENGTH`, which agent.py imports
      but constants.py does not define. */
  datatype World = World(agentRadius: real, agentCount: nat, envLength: real)

  predicate ValidWorld(w: World) {
    0.0 < w.agentRadius && 0.0 < w.envLength
  }

  /** An agent. `distances[id]` is the cached distance to the agent with
      that id, -1 when unknown. Colour is rendering state and left out. */
  datatype Agent = Agent(
    id: nat,
    position: Vec2,
    velocity: Vec2,
    acceleration: Vec2,
    maxSpeed: real,
    maxForce: real,
    avoidDistance: real,
    cohesionDistance: real,
    alignmentDistance: real,
    perception: real,
    distances: seq<int>,
    panic: real,
    easeDistance: real,
    avgPanicAround: real)

  /** `Agent.__init__`. The random initial velocity (each component drawn
      from [-1, 1]) and maximum speed (drawn from [1.5, AGENT_MAX_SPEED])
      are parameters. */
  function NewAgent(w: World, x: real, y: real, id: nat, velocity: Vec2, maxSpeed: real): (a: Agent)
    requires -1.0 <= velocity.x <= 1.0 && -1.0 <= velocity.y <= 1.0
    requires 1.5 <= maxSpeed <= AgentMaxSpeed
    ensures a.id == id && a.position == Vec2(x, y) && a.velocity == velocity
    ensures a.acceleration == Zero && a.panic == 0.0 && a.avgPanicAround == 0.0
    ensures a.maxSpeed == maxSpeed && a.maxForce == AgentMaxForce
    ensures a.avoidDistance == 2.0 * w.agentRadius + 2.0
    ensures a.cohesionDistance == 8.0 * w.agentRadius
    ensures a.alignmentDistance == 4.0 * w.agentRadius
    ensures a.easeDistance == 10.0 * w.agentRadius
    ensures a.perception >= a.avoidDistance && a.perception >= a.cohesionDistance
    ensures a.perception >= a.alignmentDistance
    ensures a.perception in {a.avoidDistance, a.cohesionDistance, a.alignmentDistance}
    ensures |a.distances| == w.agentCount && forall k :: 0 <= k < w.agentCount ==> a.distances[k] == -1
  {
    var avoid := 2.0 * w.agentRadius + 2.0;
    var cohesion := 8.0 * w.agentRadius;
    var alignment := 4.0 * w.agentRadius;
    Agent(id, Vec2(x, y), velocity, Zero, maxSpeed, AgentMaxForce,
          avoid, cohesion, alignment, Max(Max(avoid, alignment), cohesion),
          seq(w.agentCount, _ => -1), 0.0, 10.0 * w.agentRadius, 0.0)
  }

  /** With a radius of at least 1/3 the cohesion radius is the perception
      radius; below it the avoid radius is. */
  lemma PerceptionRadius(w: World, x: real, y: real, id: nat, velocity: Vec2, maxSpeed: real)
    requires -1.0 <= velocity.x <= 1.0 && -1.0 <= velocity.y <= 1.0
    requires 1.5 <= maxSpeed <= AgentMaxSpeed
    ensures var a := NewAgent(w, x, y, id, velocity, maxSpeed);
            (3.0 * w.agentRadius >= 1.0 ==> a.perception == 8.0 * w.agentRadius) &&
            (3.0 * w.agentRadius < 1.0 ==> a.perception == 2.0 * w.agentRadius + 2.0)
  {
  }

  /** What the behaviours need of the agents list: every id indexes every
      distance table, speeds are positive and force caps non-negative. */
  predicate Population(agents: seq<Agent>) {
    && (forall i, j :: 0 <= i < |agents| && 0 <= j < |agents| ==> agents[j].id < |agents[i].distances|)
    && (forall i :: 0 <= i < |agents| ==> 0.0 < agents[i].maxSpeed && 0.0 <= agents[i].maxForce)
  }

  /** Agent `j` is one of agent `i`'s neighbours within `radius`: another
      agent whose cached distance is known and strictly below `radius`. */
  predicate IsNeighbour(agents: seq<Agent>, i: nat, j: nat, radius: real)
    requires Population(agents) && i < |agents| && j < |agents|
  {
    var d := agents[i].distances[agents[j].id];
    j != i && d != -1 && (d as real) < radius
  }

  /** Agent `i`'s neighbours within `radius` among the first `n` agents,
      in list order: each neighbour once, so `|ns|` is the `total` the
      means divide by. */
  function Neighbours(agents: seq<Agent>, i: nat, radius: real, n: nat): (ns: seq<nat>)
    requires Population(agents) && i < |agents| && n <= |agents|
    ensures |ns| <= n
    ensures forall a, b :: 0 <= a < b < |ns| ==> ns[a] < ns[b]
    ensures forall k :: 0 <= k < |ns| ==> ns[k] < n && IsNeighbour(agents, i, ns[k], radius)
    ensures forall j :: 0 <= j < n && IsNeighbour(agents, i, j, radius) ==> j in ns
  {
    if n == 0 then []
    else
      var ns := Neighbours(agents, i, radius, n - 1);
      if IsNeighbour(agents, i, n - 1, radius) then ns + [n - 1] else ns
  }

  predicate Indices(agents: seq<Agent>, ns: seq<nat>) {
    forall k :: 0 <= k < |ns| ==> ns[k] < |agents|
  }

  function VelocitySum(agents: seq<Agent>, ns: seq<nat>): Vec2
    requires Indices(agents, ns)
  {
    if |ns| == 0 then Zero
    else Add(VelocitySum(agents, ns[..|ns| - 1]), agents[ns[|ns| - 1]].velocity)
  }

  function PositionSum(agents: seq<Agent>, ns: seq<nat>): Vec2
    requires Indices(agents, ns)
  {
    if |ns| == 0 then Zero
    else Add(PositionSum(agents, ns[..|ns| - 1]), agents[ns[|ns| - 1]].position)
  }

  /** The sum of the listed agents' panic; non-negative when theirs is. */
  function PanicSum(agents: seq<Agent>, ns: seq<nat>): (s: real)
    requires Indices(agents, ns)
    ensures (forall k :: 0 <= k < |ns| ==> agents[ns[k]].panic >= 0.0) ==> s >= 0.0
  {
    if |ns| == 0 then 0.0
    else PanicSum(agents, ns[..|ns| - 1]) + agents[ns[|ns| - 1]].panic
  }

  /** The separation push of agent `i` away from the listed agents, each
      difference divided by the cached distance plus a tiny epsilon. */
  function RepulsionSum(agents: seq<Agent>, i: nat, ns: seq<nat>): Vec2
    requires Population(agents) && i < |agents| && Indices(agents, ns)
  {
    if |ns| == 0 then Zero
    else
      var other := agents[ns[|ns| - 1]];
      var d := agents[i].distances[other.id];
      Add(RepulsionSum(agents, i, ns[..|ns| - 1]),
          Scale(Sub(agents[i].position, other.position), 1.0 / (d as real + SeparationEpsilon)))
  }

  function Mean(v: Vec2, n: nat): Vec2
    requires 0 < n
  {
    Scale(v, 1.0 / n as real)
  }

  /** The mean of `n` panic levels summing to `s`. */
  function MeanPanic(s: real, n: nat): (m: real)
    requires 0 < n
    ensures m * n as real == s
    ensures s >= 0.0 ==> m >= 0.0
  {
    s / n as real
  }

  function AlignNeighbours(agents: seq<Agent>, i: nat): seq<nat>
    requires Population(agents) && i < |agents|
  {
    Neighbours(agents, i, agents[i].alignmentDistance, |agents|)
  }

  function CohesionNeighbours(agents: seq<Agent>, i: nat): seq<nat>
    requires Population(agents) && i < |agents|
  {
    Neighbours(agents, i, agents[i].cohesionDistance, |agents|)
  }

  function AvoidNeighbours(agents: seq<Agent>, i: nat): seq<nat>
    requires Population(agents) && i < |agents|
  {
    Neighbours(agents, i, agents[i].avoidDistance, |agents|)
  }

  /** `align` normalises the neighbours' mean velocity without a guard;
      pygame raises on a zero vector, so it must not be zero. */
  predicate AlignDefined(agents: seq<Agent>, i: nat)
    requires Population(agents) && i < |agents|
  {
    var ns := AlignNeighbours(agents, i);
    |ns| == 0 || Mean(VelocitySum(agents, ns), |ns|) != Zero
  }

  /** `cohere` normalises the offset to the neighbours' centre without a
      guard, so it must not be zero. */
  predicate CohereDefined(agents: seq<Agent>, i: nat)
    requires Population(agents) && i < |agents|
  {
    var ns := CohesionNeighbours(agents, i);
    |ns| == 0 || Sub(Mean(PositionSum(agents, ns), |ns|), agents[i].position) != Zero
  }

  /** `1 / scale * (value - reference)`: how far `value` exceeds
      `reference`, relative to `scale`; positive exactly when it does. */
  function RelativeExcess(value: real, reference: real, scale: real): (p: real)
    requires 0.0 < scale
    ensures p * scale == value - reference
    ensures p > 0.0 <==> value > reference
    ensures p == 0.0 <==> value == reference
  {
    1.0 / scale * (value - reference)
  }

  /** What `align` steers toward: full speed along the neighbours' mean
      velocity. */
  function AlignDesired(len: Vec2 -> real, agents: seq<Agent>, i: nat): (d: Vec2)
    requires IsLength(len) && Population(agents) && i < |agents|
    requires AlignDefined(agents, i) && |AlignNeighbours(agents, i)| > 0
    ensures var ns := AlignNeighbours(agents, i);
            len(d) == agents[i].maxSpeed && SameDirection(d, Mean(VelocitySum(agents, ns), |ns|))
  {
    var ns := AlignNeighbours(agents, i);
    AtSpeed(len, Mean(VelocitySum(agents, ns), |ns|), agents[i].maxSpeed)
  }

  /** What `cohere` steers toward: full speed toward the neighbours'
      centre. */
  function CohereDesired(len: Vec2 -> real, agents: seq<Agent>, i: nat): (d: Vec2)
    requires IsLength(len) && Population(agents) && i < |agents|
    requires CohereDefined(agents, i) && |CohesionNeighbours(agents, i)| > 0
    ensures var ns := CohesionNeighbours(agents, i);
            len(d) == agents[i].maxSpeed &&
            SameDirection(d, Sub(Mean(PositionSum(agents, ns), |ns|), agents[i].position))
  {
    var ns := CohesionNeighbours(agents, i);
    AtSpeed(len, Sub(Mean(PositionSum(agents, ns), |ns|), agents[i].position), agents[i].maxSpeed)
  }

  /** What `separate` steers toward: full speed along the mean push away
      from the close neighbours, or standing still when the pushes cancel. */
  function SeparateDesired(len: Vec2 -> real, agents: seq<Agent>, i: nat): (d: Vec2)
    requires IsLength(len) && Population(agents) && i < |agents| && |AvoidNeighbours(agents, i)| > 0
    ensures var ns := AvoidNeighbours(agents, i);
            var push := Mean(RepulsionSum(agents, i, ns), |ns|);
            && (push == Zero ==> d == Zero)
            && (push != Zero ==> len(d) == agents[i].maxSpeed && SameDirection(d, push))
  {
    var ns := AvoidNeighbours(agents, i);
    AtSpeed(len, Mean(RepulsionSum(agents, i, ns), |ns|), agents[i].maxSpeed)
  }

  /** What `steer_to_exit` steers toward: full speed toward the exit's
      middle, or standing still on it. */
  function ExitDesired(len: Vec2 -> real, self: Agent): (d: Vec2)
    requires IsLength(len)
    ensures var offset := Sub(ExitTarget, self.position);
            && (offset == Zero ==> d == Zero)
            && (offset != Zero && 0.0 < self.maxSpeed ==> len(d) == self.maxSpeed && SameDirection(d, offset))
  {
    AtSpeed(len, Sub(ExitTarget, self.position), self.maxSpeed)
  }

  /** `align`: steer toward the neighbours' mean velocity at full speed.
      The panic term is the neighbours' mean speed minus the agent's own,
      relative to its maximum speed: positive exactly when the neighbours
      are faster. No neighbour: zero vector and zero panic. */
  function Align(len: Vec2 -> real, agents: seq<Agent>, i: nat): (res: (Vec2, real))
    requires IsLength(len) && Population(agents) && i < |agents|
    requires AlignDefined(agents, i)
    ensures len(res.0) <= agents[i].maxForce
    ensures |AlignNeighbours(agents, i)| == 0 ==> res == (Zero, 0.0)
    ensures var ns := AlignNeighbours(agents, i);
            |ns| > 0 ==>
              res.1 == RelativeExcess(len(Mean(VelocitySum(agents, ns), |ns|)), len(agents[i].velocity),
                                      agents[i].maxSpeed)
    ensures |AlignNeighbours(agents, i)| > 0 ==>
              SteersToward(len, res.0, AlignDesired(len, agents, i), agents[i].velocity,
                           AlignWeight, agents[i].maxForce)
  {
    var self := agents[i];
    var ns := AlignNeighbours(agents, i);
    if |ns| == 0 then (Zero, 0.0)
    else
      var avg := Mean(VelocitySum(agents, ns), |ns|);
      var panic := RelativeExcess(len(avg), len(self.velocity), self.maxSpeed);
      (Steer(len, AlignDesired(len, agents, i), self.velocity, AlignWeight, self.maxForce), panic)
  }

  /** The panic half of `cohere`, the new `avg_panic_around`: the mean
      panic of the neighbours within the cohesion radius, or the old value
      when there is none. */
  function NeighbourhoodPanic(agents: seq<Agent>, i: nat): (p: real)
    requires Population(agents) && i < |agents|
    ensures |CohesionNeighbours(agents, i)| == 0 ==> p == agents[i].avgPanicAround
    ensures var ns := CohesionNeighbours(agents, i);
            |ns| > 0 ==> p == MeanNeighbourPanic(agents, ns)
    ensures (forall k :: 0 <= k < |agents| ==> agents[k].panic >= 0.0) && agents[i].avgPanicAround >= 0.0
            ==> p >= 0.0
  {
    var ns := CohesionNeighbours(agents, i);
    if |ns| == 0 then agents[i].avgPanicAround
    else MeanNeighbourPanic(agents, ns)
  }

  /** The mean panic of the listed agents; non-negative when every agent's
      panic is. */
  function MeanNeighbourPanic(agents: seq<Agent>, ns: seq<nat>): (p: real)
    requires Indices(agents, ns) && |ns| > 0
    ensures p * |ns| as real == PanicSum(agents, ns)
    ensures (forall k :: 0 <= k < |agents| ==> agents[k].panic >= 0.0) ==> p >= 0.0
  {
    MeanPanic(PanicSum(agents, ns), |ns|)
  }

  /** `cohere`: steer toward the neighbours' mean position, and take the
      neighbourhood's mean panic. No neighbour: zero vector. */
  function Cohere(len: Vec2 -> real, agents: seq<Agent>, i: nat): (res: (Vec2, real))
    requires IsLength(len) && Population(agents) && i < |agents|
    requires CohereDefined(agents, i)
    ensures len(res.0) <= agents[i].maxForce
    ensures |CohesionNeighbours(agents, i)| == 0 ==> res.0 == Zero
    ensures |CohesionNeighbours(agents, i)| > 0 ==>
              SteersToward(len, res.0, CohereDesired(len, agents, i), agents[i].velocity,
                           CohereWeight, agents[i].maxForce)
    ensures res.1 == NeighbourhoodPanic(agents, i)
  {
    var self := agents[i];
    var ns := CohesionNeighbours(agents, i);
    if |ns| == 0 then (Zero, NeighbourhoodPanic(agents, i))
    else
      (Steer(len, CohereDesired(len, agents, i), self.velocity, CohereWeight, self.maxForce),
       NeighbourhoodPanic(agents, i))
  }

  /** `separate`: steer away from the neighbours within the avoid radius;
      a zero mean push is not normalised. No neighbour: zero vector. */
  function Separate(len: Vec2 -> real, agents: seq<Agent>, i: nat): (s: Vec2)
    requires IsLength(len) && Population(agents) && i < |agents|
    ensures len(s) <= agents[i].maxForce
    ensures |AvoidNeighbours(agents, i)| == 0 ==> s == Zero
    ensures |AvoidNeighbours(agents, i)| > 0 ==>
              SteersToward(len, s, SeparateDesired(len, agents, i), agents[i].velocity,
                           SeparateWeight, agents[i].maxForce)
  {
    var self := agents[i];
    var ns := AvoidNeighbours(agents, i);
    if |ns| == 0 then Zero
    else
      Steer(len, SeparateDesired(len, agents, i), self.velocity, SeparateWeight, self.maxForce)
  }

  /** `steer_to_exit`. The panic term is the distance to the exit beyond
      the ease distance, relative to the arena length: positive exactly
      when the agent is farther than the ease distance. */
  function SteerToExit(len: Vec2 -> real, w: World, self: Agent): (res: (Vec2, real))
    requires IsLength(len) && ValidWorld(w) && 0.0 <= self.maxForce
    ensures len(res.0) <= self.maxForce
    ensures SteersToward(len, res.0, ExitDesired(len, self), self.velocity, ExitWeight, self.maxForce)
    ensures res.1 == RelativeExcess(len(Sub(ExitTarget, self.position)), self.easeDistance, w.envLength)
  {
    var offset := Sub(ExitTarget, self.position);
    var panic := RelativeExcess(len(offset), self.easeDistance, w.envLength);
    (Steer(len, ExitDesired(len, self), self.velocity, ExitWeight, self.maxForce), panic)
  }

  /** The panic recurrence: the old panic averaged with the mean of the
      alignment and exit terms (cohesion adds none), clamped below at 0
      and not above. */
  function NextPanic(panic: real, alignPanic: real, exitPanic: real): (p: real)
    ensures p >= 0.0
    ensures 4.0 * p >= 2.0 * panic + alignPanic + exitPanic
    ensures p > 0.0 ==> 4.0 * p == 2.0 * panic + alignPanic + exitPanic
  {
    var newPanic := (alignPanic + exitPanic) / 2.0;
    var update := (panic + newPanic) / 2.0;
    if update >= 0.0 then update else 0.0
  }

  /** The worked example: 0.4 with a new term of 0.8 gives 0.6. */
  lemma PanicExample(alignPanic: real, exitPanic: real)
    requires (alignPanic + exitPanic) / 2.0 == 0.8
    ensures NextPanic(0.4, alignPanic, exitPanic) == 0.6
  {
  }

  /** Nothing bounds panic above: it can exceed 1. */
  lemma PanicNotClampedAbove()
    ensures NextPanic(1.0, 2.0, 2.0) == 1.5
  {
  }

  predicate Herding(p: real) {
    p >= HerdingThreshold
  }

  /** `flock`: compute all four behaviours and the new panic. A herding
      agent (new panic at least 0.5) gains only the cohesion vector and
      adopts the neighbourhood's mean panic; a seeking agent gains
      alignment, separation and exit steering, and keeps the new panic. */
  function Flock(len: Vec2 -> real, w: World, agents: seq<Agent>, i: nat): (a: Agent)
    requires IsLength(len) && ValidWorld(w) && Population(agents) && i < |agents|
    requires AlignDefined(agents, i) && CohereDefined(agents, i)
    ensures a == agents[i].(acceleration := a.acceleration, panic := a.panic,
                            avgPanicAround := a.avgPanicAround)
    ensures a.avgPanicAround == Cohere(len, agents, i).1
    ensures var p := NextPanic(agents[i].panic, Align(len, agents, i).1,
                               SteerToExit(len, w, agents[i]).1);
            if Herding(p) then
              && a.acceleration == Add(agents[i].acceleration, Cohere(len, agents, i).0)
              && a.panic == a.avgPanicAround
            else
              && a.acceleration == Add(Add(Add(agents[i].acceleration, Align(len, agents, i).0),
                                           Separate(len, agents, i)),
                                       SteerToExit(len, w, agents[i]).0)
              && a.panic == p
  {
    var self := agents[i];
    var (alignment, alignPanic) := Align(len, agents, i);
    var (cohesion, avgAround) := Cohere(len, agents, i);
    var separation := Separate(len, agents, i);
    var (exitSteering, exitPanic) := SteerToExit(len, w, self);
    var panic := NextPanic(self.panic, alignPanic, exitPanic);
    if Herding(panic) then
      self.(acceleration := Add(self.acceleration, cohesion), panic := avgAround, avgPanicAround := avgAround)
    else
      self.(acceleration := Add(Add(Add(self.acceleration, alignment), separation), exitSteering),
            panic := panic, avgPanicAround := avgAround)
  }

  /** One `flock` changes the acceleration by at most three force caps
      (one when herding). */
  lemma FlockForceBound(len: Vec2 -> real, w: World, agents: seq<Agent>, i: nat)
    requires IsLength(len) && ValidWorld(w) && Population(agents) && i < |agents|
    requires AlignDefined(agents, i) && CohereDefined(agents, i)
    ensures var a := Flock(len, w, agents, i);
            len(Sub(a.acceleration, agents[i].acceleration)) <= 3.0 * agents[i].maxForce
  {
    var self := agents[i];
    var a := Flock(len, w, agents, i);
    if Herding(NextPanic(self.panic, Align(len, agents, i).1, SteerToExit(len, w, self).1)) {
      assert Sub(a.acceleration, self.acceleration) == Cohere(len, agents, i).0;
    } else {
      ThreeForces(len, self.acceleration, Align(len, agents, i).0, Separate(len, agents, i),
                  SteerToExit(len, w, self).0, self.maxForce);
    }
  }

  /** Panic and `avg_panic_around` stay non-negative through `flock` when
      every agent's panic and the agent's own `avg_panic_around` are. */
  lemma FlockKeepsPanicNonNegative(len: Vec2 -> real, w: World, agents: seq<Agent>, i: nat)
    requires IsLength(len) && ValidWorld(w) && Population(agents) && i < |agents|
    requires AlignDefined(agents, i) && CohereDefined(agents, i)
    requires forall k :: 0 <= k < |agents| ==> agents[k].panic >= 0.0
    requires agents[i].avgPanicAround >= 0.0
    ensures Flock(len, w, agents, i).panic >= 0.0
    ensures Flock(len, w, agents, i).avgPanicAround >= 0.0
  {
  }

  /** `update`: add the acceleration to the velocity, rescale it to the
      maximum speed when faster, move by it, and clear the acceleration. */
  function Update(len: Vec2 -> real, a: Agent): (b: Agent)
    requires IsLength(len) && 0.0 <= a.maxSpeed
    ensures b == a.(velocity := b.velocity, position := b.position, acceleration := Zero)
    ensures len(b.velocity) <= a.maxSpeed
    ensures Sub(b.position, a.position) == b.velocity
    ensures len(Add(a.velocity, a.acceleration)) <= a.maxSpeed ==> b.velocity == Add(a.velocity, a.acceleration)
    ensures len(Add(a.velocity, a.acceleration)) > a.maxSpeed ==>
              len(b.velocity) == a.maxSpeed &&
              (a.maxSpeed > 0.0 ==> SameDirection(b.velocity, Add(a.velocity, a.acceleration)))
  {
    var v := UpdateVelocity(len, a.velocity, a.acceleration, a.maxSpeed);
    a.(velocity := v, position := Add(a.position, v), acceleration := Zero)
  }

  /** Every agent's panic and `avg_panic_around` are non-negative. */
  predicate PanicsNonNegative(agents: seq<Agent>) {
    forall k :: 0 <= k < |agents| ==> agents[k].panic >= 0.0 && agents[k].avgPanicAround >= 0.0
  }

  /** The fields `flock` and `update` never touch. */
  predicate SameIdentity(a: Agent, b: Agent) {
    && a.id == b.id && a.maxSpeed == b.maxSpeed && a.maxForce == b.maxForce
    && a.distances == b.distances && a.avoidDistance == b.avoidDistance
    && a.cohesionDistance == b.cohesionDistance && a.alignmentDistance == b.alignmentDistance
    && a.perception == b.perception && a.easeDistance == b.easeDistance
  }

  /** One agent's turn in the tick: `flock`, then `update`. */
  function Turn(len: Vec2 -> real, w: World, agents: seq<Agent>, k: nat): (b: Agent)
    requires IsLength(len) && ValidWorld(w) && Population(agents) && k < |agents|
    requires AlignDefined(agents, k) && CohereDefined(agents, k)
    ensures SameIdentity(agents[k], b)
    ensures len(b.velocity) <= b.maxSpeed && b.acceleration == Zero
    ensures var f := Flock(len, w, agents, k);
            && (len(Add(f.velocity, f.acceleration)) <= f.maxSpeed ==> b.velocity == Add(f.velocity, f.acceleration))
            && (len(Add(f.velocity, f.acceleration)) > f.maxSpeed ==> len(b.velocity) == f.maxSpeed)
    ensures PanicsNonNegative(agents) ==> b.panic >= 0.0 && b.avgPanicAround >= 0.0
  {
    if PanicsNonNegative(agents) then
      FlockKeepsPanicNonNegative(len, w, agents, k);
      Update(len, Flock(len, w, agents, k))
    else
      Update(len, Flock(len, w, agents, k))
  }

  /** The loop invariant of `FlockAndUpdate` after `k` turns: the agents
      keep their identity and stay a population, the first `k` have moved
      (speed capped, acceleration cleared), and panic stays non-negative
      when it started so. */
  ghost predicate TurnsTaken(len: Vec2 -> real, agents: seq<Agent>, current: seq<Agent>, k: nat) {
    && k <= |current| == |agents|
    && (forall m :: 0 <= m < |agents| ==> SameIdentity(agents[m], current[m]))
    && Population(current)
    && (forall m :: 0 <= m < k ==>
          len(current[m].velocity) <= current[m].maxSpeed && current[m].acceleration == Zero)
    && (PanicsNonNegative(agents) ==> PanicsNonNegative(current))
  }

  /** The invariant survives replacing agent `k` by its turn's result. */
  lemma TurnKeepsInvariant(len: Vec2 -> real, agents: seq<Agent>, current: seq<Agent>, k: nat, b: Agent)
    requires TurnsTaken(len, agents, current, k) && k < |current|
    requires SameIdentity(current[k], b)
    requires len(b.velocity) <= b.maxSpeed && b.acceleration == Zero
    requires PanicsNonNegative(current) ==> b.panic >= 0.0 && b.avgPanicAround >= 0.0
    ensures TurnsTaken(len, agents, current[k := b], k + 1)
  {
  }

  /** `align` and `cohere` can both run for agent `k`: neither would
      normalise a zero vector. */
  predicate TurnDefined(agents: seq<Agent>, k: nat)
    requires Population(agents) && k < |agents|
  {
    AlignDefined(agents, k) && CohereDefined(agents, k)
  }

  /** pygame's `ValueError` when `align` or `cohere` normalises a zero
      vector, naming the agent's position in the list. */
  datatype TickError = CannotNormalizeZero(index: nat)

  /** A tick's turns as a fold: `step(current, k)` takes agent `k`'s turn on
      the crowd `current` the earlier turns left, or fails; the first
      failure ends the fold. */
  ghost function Fold(step: (seq<Agent>, nat) -> Result<seq<Agent>, TickError>, agents: seq<Agent>, k: nat)
    : Result<seq<Agent>, TickError>
  {
    if k == 0 then Success(agents)
    else
      match Fold(step, agents, k - 1)
      case Failure(e) => Failure(e)
      case Success(current) => step(current, k - 1)
  }

  /** Once a step has failed, the rest of the fold reports that failure. */
  lemma {:induction false} FoldFailureSticks(step: (seq<Agent>, nat) -> Result<seq<Agent>, TickError>,
                                             agents: seq<Agent>, k: nat, n: nat)
    requires k <= n && Fold(step, agents, k).Failure?
    ensures Fold(step, agents, n) == Fold(step, agents, k)
    decreases n - k
  {
    if k < n {
      FoldFailureSticks(step, agents, k, n - 1);
    }
  }

  /** A fold that gets through `n` steps got through every earlier one,
      and each of those steps succeeded. */
  lemma {:induction false} FoldPrefix(step: (seq<Agent>, nat) -> Result<seq<Agent>, TickError>,
                                      agents: seq<Agent>, k: nat, n: nat)
    requires k < n && Fold(step, agents, n).Success?
    ensures Fold(step, agents, k).Success? && step(Fold(step, agents, k).value, k).Success?
    decreases n - k
  {
    if k < n - 1 {
      FoldPrefix(step, agents, k, n - 1);
    }
  }

  /** One more step of a fold that has succeeded so far is that step. */
  lemma FoldStep(step: (seq<Agent>, nat) -> Result<seq<Agent>, TickError>, agents: seq<Agent>, k: nat, current: seq<Agent>)
    requires 0 < k && Fold(step, agents, k - 1) == Success(current)
    ensures Fold(step, agents, k) == step(current, k - 1)
  {
  }

  /** The step a failed fold stopped at: every step before it succeeded,
      and its failure is the fold's result. */
  ghost function FailingStep(step: (seq<Agent>, nat) -> Result<seq<Agent>, TickError>, agents: seq<Agent>, n: nat)
    : (e: nat)
    requires Fold(step, agents, n).Failure?
    ensures e < n && Fold(step, agents, e).Success?
    ensures step(Fold(step, agents, e).value, e) == Fold(step, agents, n)
  {
    if Fold(step, agents, n - 1).Failure? then FailingStep(step, agents, n - 1) else n - 1
  }

  /** Runs a fold step by step, stopping at the first failure. */
  method RunFold(step: (seq<Agent>, nat) -> Result<seq<Agent>, TickError>, agents: seq<Agent>, n: nat)
    returns (r: Result<seq<Agent>, TickError>)
    ensures r == Fold(step, agents, n)
  {
    var current := agents;
    var k := 0;
    while k < n
      invariant k <= n
      invariant Fold(step, agents, k) == Success(current)
    {
      var next := step(current, k);
      if next.Failure? {
        r := next;
        FoldFailureSticks(step, agents, k + 1, n);
        return;
      }
      current := next.value;
      k := k + 1;
    }
    r := Success(current);
  }

  /** Agent `k`'s turn as the tick's step: `flock` then `update` on the
      crowd the earlier turns left, or the error naming agent `k` when its
      `align` or `cohere` would normalise a zero vector. */
  function TurnAt(len: Vec2 -> real, w: World, current: seq<Agent>, k: nat): Result<seq<Agent>, TickError>
    requires IsLength(len) && ValidWorld(w)
  {
    if Population(current) && k < |current| && TurnDefined(current, k)
    then Success(current[k := Turn(len, w, current, k)])
    else Failure(CannotNormalizeZero(k))
  }

  /** A turn fails only with the error naming its own agent, and succeeds
      exactly when that agent's turn is defined. */
  lemma TurnAtOutcome(len: Vec2 -> real, w: World, current: seq<Agent>, k: nat)
    requires IsLength(len) && ValidWorld(w)
    ensures var r := TurnAt(len, w, current, k);
            && (r.Failure? ==> r == Failure(CannotNormalizeZero(k)))
            && (r.Success? ==> |r.value| == |current| && Population(r.value))
    ensures Population(current) && k < |current| ==>
              if TurnDefined(current, k)
              then TurnAt(len, w, current, k) == Success(current[k := Turn(len, w, current, k)])
              else TurnAt(len, w, current, k) == Failure(CannotNormalizeZero(k))
  {
    if Population(current) && k < |current| && TurnDefined(current, k) {
      PopulationKept(current, k, Turn(len, w, current, k));
    }
  }

  /** Replacing an agent by one of the same identity keeps a population. */
  lemma PopulationKept(current: seq<Agent>, k: nat, b: Agent)
    requires Population(current) && k < |current| && SameIdentity(current[k], b)
    ensures Population(current[k := b])
  {
  }

  /** The tick's step function. */
  function TickStep(len: Vec2 -> real, w: World): (seq<Agent>, nat) -> Result<seq<Agent>, TickError>
    requires IsLength(len) && ValidWorld(w)
  {
    (current: seq<Agent>, k: nat) => TurnAt(len, w, current, k)
  }

  lemma TickStepIsTurnAt(len: Vec2 -> real, w: World, current: seq<Agent>, k: nat)
    requires IsLength(len) && ValidWorld(w)
    ensures TickStep(len, w)(current, k) == TurnAt(len, w, current, k)
  {
  }

  /** `step` keeps `inv`: an invariant of the crowd after `k` steps holds
      after `k + 1`. */
  ghost predicate Preserves(step: (seq<Agent>, nat) -> Result<seq<Agent>, TickError>, inv: (seq<Agent>, nat) -> bool) {
    forall current: seq<Agent>, k: nat ::
      inv(current, k) && step(current, k).Success? ==> inv(step(current, k).value, k + 1)
  }

  /** A fold of a step that keeps `inv`, started where `inv` holds, keeps
      it throughout. */
  lemma {:induction false} FoldPreserves(step: (seq<Agent>, nat) -> Result<seq<Agent>, TickError>,
                                         inv: (seq<Agent>, nat) -> bool, agents: seq<Agent>, k: nat)
    requires inv(agents, 0) && Preserves(step, inv)
    ensures Fold(step, agents, k).Success? ==> inv(Fold(step, agents, k).value, k)
  {
    if k > 0 {
      FoldPreserves(step, inv, agents, k - 1);
    }
  }

  /** `TurnsTaken` as an invariant of the tick's fold. */
  ghost function Moved(len: Vec2 -> real, agents: seq<Agent>): (seq<Agent>, nat) -> bool {
    (current: seq<Agent>, k: nat) => TurnsTaken(len, agents, current, k)
  }

  /** Each turn of the tick keeps `TurnsTaken`. */
  lemma TickStepKeepsMoved(len: Vec2 -> real, w: World, agents: seq<Agent>)
    requires IsLength(len) && ValidWorld(w)
    ensures Preserves(TickStep(len, w), Moved(len, agents))
  {
    forall current: seq<Agent>, k: nat | Moved(len, agents)(current, k) && TickStep(len, w)(current, k).Success?
      ensures Moved(len, agents)(TickStep(len, w)(current, k).value, k + 1)
    {
      TickStepIsTurnAt(len, w, current, k);
      TurnAtOutcome(len, w, current, k);
      TurnKeepsInvariant(len, agents, current, k, Turn(len, w, current, k));
    }
  }

  /** Every crowd the tick passes through has moved its first `k` agents
      and stays a population of the starting size. */
  lemma TickKeepsMoved(len: Vec2 -> real, w: World, agents: seq<Agent>, k: nat)
    requires IsLength(len) && ValidWorld(w) && Population(agents)
    ensures Fold(TickStep(len, w), agents, k).Success? ==>
              TurnsTaken(len, agents, Fold(TickStep(len, w), agents, k).value, k)
  {
    TickStepKeepsMoved(len, w, agents);
    FoldPreserves(TickStep(len, w), Moved(len, agents), agents, k);
  }

  /** The crowd after the first `k` turns of a tick, taken one after
      another and in place: agent `m` flocks among agents `0 .. m - 1`
      already moved and agents `m + 1 ..` not yet moved. The first agent
      whose turn would normalise a zero vector ends the tick. */
  ghost function AfterTurns(len: Vec2 -> real, w: World, agents: seq<Agent>, k: nat): (r: Result<seq<Agent>, TickError>)
    requires IsLength(len) && ValidWorld(w) && Population(agents)
    ensures r.Success? ==> |r.value| == |agents| && Population(r.value)
  {
    TickKeepsMoved(len, w, agents, k);
    Fold(TickStep(len, w), agents, k)
  }

  /** The agent phase of a tick: `flock` then `update`, one agent after
      another and in place, so later agents see earlier agents' new
      position, velocity and panic. It fails, naming the agent, exactly
      when some agent's `align` or `cohere` would normalise a zero vector
      among the agents moved before it. */
  method FlockAndUpdate(len: Vec2 -> real, w: World, agents: seq<Agent>)
    returns (r: Result<seq<Agent>, TickError>)
    requires IsLength(len) && ValidWorld(w) && Population(agents)
    ensures r == AfterTurns(len, w, agents, |agents|)
    ensures r.Success? ==> |r.value| == |agents|
    ensures r.Success? ==> forall k :: 0 <= k < |agents| ==> SameIdentity(agents[k], r.value[k])
    ensures r.Success? ==> forall k :: 0 <= k < |agents| ==>
              len(r.value[k].velocity) <= r.value[k].maxSpeed && r.value[k].acceleration == Zero
    ensures r.Success? && PanicsNonNegative(agents) ==> PanicsNonNegative(r.value)
  {
    r := RunFold(TickStep(len, w), agents, |agents|);
    TickKeepsMoved(len, w, agents, |agents|);
  }

  /** How a tick ends: it completes exactly when it reaches every turn
      and each is defined; when it fails, the error names a turn it
      reached that was undefined, after every earlier turn was reached and
      defined, so the first undefined turn. */
  lemma TickOutcome(len: Vec2 -> real, w: World, agents: seq<Agent>)
    requires IsLength(len) && ValidWorld(w) && Population(agents)
    ensures var r := AfterTurns(len, w, agents, |agents|);
            r.Success? ==> forall k :: 0 <= k < |agents| ==> TurnReached(len, w, agents, k, true)
    ensures var r := AfterTurns(len, w, agents, |agents|);
            r.Failure? ==>
              && r.error.index < |agents|
              && TurnReached(len, w, agents, r.error.index, false)
              && forall k :: 0 <= k < r.error.index ==> TurnReached(len, w, agents, k, true)
  {
    var r := AfterTurns(len, w, agents, |agents|);
    if r.Success? {
      forall m | 0 <= m < |agents|
        ensures TurnReached(len, w, agents, m, true)
      {
        TickPrefix(len, w, agents, m, |agents|);
      }
    } else {
      FailureNamesFirstUndefined(len, w, agents);
    }
  }

  /** The tick reaches agent `k`'s turn (every earlier turn went through)
      and that turn is `defined` or not. */
  ghost predicate TurnReached(len: Vec2 -> real, w: World, agents: seq<Agent>, k: nat, defined: bool)
    requires IsLength(len) && ValidWorld(w) && Population(agents) && k < |agents|
  {
    var before := AfterTurns(len, w, agents, k);
    before.Success? && TurnDefined(before.value, k) == defined
  }

  /** Whether agent `k`'s turn goes through on the crowd the tick has
      reached: exactly when it is defined, and otherwise with the error
      naming `k`. */
  lemma TickStepDefined(len: Vec2 -> real, w: World, current: seq<Agent>, k: nat)
    requires IsLength(len) && ValidWorld(w) && Population(current) && k < |current|
    ensures TickStep(len, w)(current, k).Success? <==> TurnDefined(current, k)
    ensures TickStep(len, w)(current, k).Failure? ==> TickStep(len, w)(current, k) == Failure(CannotNormalizeZero(k))
  {
    TickStepIsTurnAt(len, w, current, k);
    TurnAtOutcome(len, w, current, k);
  }

  /** A tick that gets through `n` turns reached each of them, and each
      was defined. */
  lemma TickPrefix(len: Vec2 -> real, w: World, agents: seq<Agent>, k: nat, n: nat)
    requires IsLength(len) && ValidWorld(w) && Population(agents) && k < n <= |agents|
    requires AfterTurns(len, w, agents, n).Success?
    ensures TurnReached(len, w, agents, k, true)
  {
    FoldPrefix(TickStep(len, w), agents, k, n);
    TickStepDefined(len, w, AfterTurns(len, w, agents, k).value, k);
  }

  /** The failure characterisation from the other side: a failed tick
      names an agent whose turn was reached and undefined, and every turn
      before it was reached and defined. */
  lemma FailureNamesFirstUndefined(len: Vec2 -> real, w: World, agents: seq<Agent>)
    requires IsLength(len) && ValidWorld(w) && Population(agents)
    requires AfterTurns(len, w, agents, |agents|).Failure?
    ensures var e := AfterTurns(len, w, agents, |agents|).error.index;
            && e < |agents|
            && TurnReached(len, w, agents, e, false)
            && forall k :: 0 <= k < e ==> TurnReached(len, w, agents, k, true)
  {
    var step := TickStep(len, w);
    var e := FailingStep(step, agents, |agents|);
    TickStepDefined(len, w, AfterTurns(len, w, agents, e).value, e);
    forall k | 0 <= k < e
      ensures TurnReached(len, w, agents, k, true)
    {
      TickPrefix(len, w, agents, k, e);
    }
  }
}

=== FILE: arena.dfy ===
/** The box the crowd moves in, its exit, and the clamp into it. */
module Arena {
  import opened Geometry

  /** The room of constants.py (and, with the same values, of boids.py):
      a 1200 x 600 box centred in a 1600 x 800 window, so
      `BOX_LEFT = (1600 - 1200) // 2` and `BOX_TOP = (800 - 600) // 2`. */
  const BoxLeft: real := 200.0
  const BoxTop: real := 100.0
  const BoxWidth: real := 1200.0
  const BoxHeight: real := 600.0

  /** `EXIT_WIDTH` and `EXIT_POSITION`, the exit's top on the right wall:
      `(BOX_LEFT + BOX_WIDTH, BOX_TOP + BOX_HEIGHT // 2 - EXIT_WIDTH // 2)`. */
  const ExitWidth: real := 60.0
  const ExitPosition: Vec2 := Vec2(BoxLeft + BoxWidth, BoxTop + 300.0 - 30.0)

  /** The point the exit steering aims at, the middle of the exit:
      `(EXIT_POSITION[0], EXIT_POSITION[1] + EXIT_WIDTH / 2)`. */
  const ExitTarget: Vec2 := Vec2(ExitPosition.x, ExitPosition.y + ExitWidth / 2.0)

  /** The bounding box both `resolve_positions` receive: left, top, width,
      height. */
  datatype Box = Box(left: real, top: real, width: real, height: real)

  /** The boundary clamp both resolvers share, `max(lo + r, min(v, hi - r))`
      on both axes: into the box inset by the radius `r`. A coordinate
      short of the inset box lands on its near edge, one beyond it on its
      far edge (when the inset box is not empty), one inside it stays. */
  function Clamp(box: Box, r: real, p: Vec2): (q: Vec2)
    ensures box.left + r <= q.x && box.top + r <= q.y
    ensures 2.0 * r <= box.width ==> q.x <= box.left + box.width - r
    ensures 2.0 * r <= box.height ==> q.y <= box.top + box.height - r
    ensures p.x < box.left + r ==> q.x == box.left + r
    ensures p.y < box.top + r ==> q.y == box.top + r
    ensures 2.0 * r <= box.width && p.x > box.left + box.width - r ==> q.x == box.left + box.width - r
    ensures 2.0 * r <= box.height && p.y > box.top + box.height - r ==> q.y == box.top + box.height - r
    ensures box.left + r <= p.x <= box.left + box.width - r ==> q.x == p.x
    ensures box.top + r <= p.y <= box.top + box.height - r ==> q.y == p.y
  {
    Vec2(Max(box.left + r, Min(p.x, box.left + box.width - r)),
         Max(box.top + r, Min(p.y, box.top + box.height - r)))
  }

  /** Clamping twice is clamping once. */
  lemma ClampIdempotent(box: Box, r: real, p: Vec2)
    ensures Clamp(box, r, Clamp(box, r, p)) == Clamp(box, r, p)
  {
  }
}

=== FILE: boid.dfy ===
/** The plain boid of boid_agent.py (and the identical `Boid` class of
    boids.py): the same four steering behaviours as the panicking agent,
    with distances measured afresh, unit weights, no panic and no mode
    switch. The two files differ only in the body radius, a parameter here:
    `AGENT_RADIUS` in boid_agent.py, `BOID_RADIUS` = 15 in boids.py. */
module Boids {
  import opened Geometry
  import opened Wrappers
  import opened Arena

  /** `AGENT_MAX_SPEED`, `AGENT_MAX_FORCE` and `AGENT_PERCEPTION`. */
  const BoidMaxSpeed: real := 3.0
  const BoidMaxForce: real := 0.3
  const PerceptionFactor: real := 4.0

  datatype Boid = Boid(position: Vec2, velocity: Vec2, acceleration: Vec2)

  /** pygame's `a.distance_to(b)`. */
  function Distance(len: Vec2 -> real, a: Vec2, b: Vec2): real {
    len(Sub(b, a))
  }

  /** Boid `j` is another boid strictly closer to boid `i` than `radius`. */
  predicate Sees(len: Vec2 -> real, boids: seq<Boid>, i: nat, j: nat, radius: real)
    requires i < |boids| && j < |boids|
  {
    j != i && Distance(len, boids[i].position, boids[j].position) < radius
  }

  /** The boids among the first `n` that boid `i` sees within `radius`, in
      list order: each once, so `|ns|` is the `total` the means divide
      by. */
  function Within(len: Vec2 -> real, boids: seq<Boid>, i: nat, radius: real, n: nat): (ns: seq<nat>)
    requires i < |boids| && n <= |boids|
    ensures |ns| <= n
    ensures forall a, b :: 0 <= a < b < |ns| ==> ns[a] < ns[b]
    ensures forall k :: 0 <= k < |ns| ==> ns[k] < n && Sees(len, boids, i, ns[k], radius)
    ensures forall j :: 0 <= j < n && Sees(len, boids, i, j, radius) ==> j in ns
  {
    if n == 0 then []
    else
      var ns := Within(len, boids, i, radius, n - 1);
      if Sees(len, boids, i, n - 1, radius) then ns + [n - 1] else ns
  }

  predicate Indices(boids: seq<Boid>, ns: seq<nat>) {
    forall k :: 0 <= k < |ns| ==> ns[k] < |boids|
  }

  function VelocitySum(boids: seq<Boid>, ns: seq<nat>): Vec2
    requires Indices(boids, ns)
  {
    if |ns| == 0 then Zero
    else Add(VelocitySum(boids, ns[..|ns| - 1]), boids[ns[|ns| - 1]].velocity)
  }

  function PositionSum(boids: seq<Boid>, ns: seq<nat>): Vec2
    requires Indices(boids, ns)
  {
    if |ns| == 0 then Zero
    else Add(PositionSum(boids, ns[..|ns| - 1]), boids[ns[|ns| - 1]].position)
  }

  /** No listed boid sits exactly on boid `i`. */
  predicate Apart(len: Vec2 -> real, boids: seq<Boid>, i: nat, ns: seq<nat>)
    requires i < |boids| && Indices(boids, ns)
  {
    forall k :: 0 <= k < |ns| ==> Distance(len, boids[i].position, boids[ns[k]].position) != 0.0
  }

  /** The sum of the differences from each listed boid to boid `i`, each
      divided by their distance. */
  function RepulsionSum(len: Vec2 -> real, boids: seq<Boid>, i: nat, ns: seq<nat>): Vec2
    requires i < |boids| && Indices(boids, ns) && Apart(len, boids, i, ns)
  {
    if |ns| == 0 then Zero
    else
      var other := boids[ns[|ns| - 1]];
      var d := Distance(len, boids[i].position, other.position);
      Add(RepulsionSum(len, boids, i, ns[..|ns| - 1]),
          Scale(Sub(boids[i].position, other.position), 1.0 / d))
  }

  function Mean(v: Vec2, n: nat): Vec2
    requires 0 < n
  {
    Scale(v, 1.0 / n as real)
  }

  /** Perception, `AGENT_RADIUS * AGENT_PERCEPTION`. */
  function Perception(bodyRadius: real): real {
    bodyRadius * PerceptionFactor
  }

  /** The separation radius, `AGENT_RADIUS * 2`. */
  function SeparationRadius(bodyRadius: real): real {
    bodyRadius * 2.0
  }

  function Flockmates(len: Vec2 -> real, bodyRadius: real, boids: seq<Boid>, i: nat): seq<nat>
    requires i < |boids|
  {
    Within(len, boids, i, Perception(bodyRadius), |boids|)
  }

  function Crowders(len: Vec2 -> real, bodyRadius: real, boids: seq<Boid>, i: nat): seq<nat>
    requires i < |boids|
  {
    Within(len, boids, i, SeparationRadius(bodyRadius), |boids|)
  }

  /** `align` normalises the flockmates' mean velocity unguarded. */
  predicate AlignDefined(len: Vec2 -> real, bodyRadius: real, boids: seq<Boid>, i: nat)
    requires i < |boids|
  {
    var ns := Flockmates(len, bodyRadius, boids, i);
    |ns| == 0 || Mean(VelocitySum(boids, ns), |ns|) != Zero
  }

  /** `cohere` normalises the offset to the flockmates' centre unguarded. */
  predicate CohereDefined(len: Vec2 -> real, bodyRadius: real, boids: seq<Boid>, i: nat)
    requires i < |boids|
  {
    var ns := Flockmates(len, bodyRadius, boids, i);
    |ns| == 0 || Sub(Mean(PositionSum(boids, ns), |ns|), boids[i].position) != Zero
  }

  /** `separate` divides by each crowder's distance, so none may coincide
      with the boid (pygame raises `ZeroDivisionError`). */
  predicate SeparateDefined(len: Vec2 -> real, bodyRadius: real, boids: seq<Boid>, i: nat)
    requires i < |boids|
  {
    Apart(len, boids, i, Crowders(len, bodyRadius, boids, i))
  }

  /** What `align` steers toward: full speed along the flockmates' mean
      velocity. */
  function AlignDesired(len: Vec2 -> real, bodyRadius: real, boids: seq<Boid>, i: nat): (d: Vec2)
    requires IsLength(len) && i < |boids| && AlignDefined(len, bodyRadius, boids, i)
    requires |Flockmates(len, bodyRadius, boids, i)| > 0
    ensures var ns := Flockmates(len, bodyRadius, boids, i);
            len(d) == BoidMaxSpeed && SameDirection(d, Mean(VelocitySum(boids, ns), |ns|))
  {
    var ns := Flockmates(len, bodyRadius, boids, i);
    AtSpeed(len, Mean(VelocitySum(boids, ns), |ns|), BoidMaxSpeed)
  }

  /** What `cohere` steers toward: full speed toward the flockmates'
      centre. */
  function CohereDesired(len: Vec2 -> real, bodyRadius: real, boids: seq<Boid>, i: nat): (d: Vec2)
    requires IsLength(len) && i < |boids| && CohereDefined(len, bodyRadius, boids, i)
    requires |Flockmates(len, bodyRadius, boids, i)| > 0
    ensures var ns := Flockmates(len, bodyRadius, boids, i);
            len(d) == BoidMaxSpeed &&
            SameDirection(d, Sub(Mean(PositionSum(boids, ns), |ns|), boids[i].position))
  {
    var ns := Flockmates(len, bodyRadius, boids, i);
    AtSpeed(len, Sub(Mean(PositionSum(boids, ns), |ns|), boids[i].position), BoidMaxSpeed)
  }

  /** What `separate` steers toward: full speed along the mean push away
      from the crowders, or standing still when the pushes cancel. */
  function SeparateDesired(len: Vec2 -> real, bodyRadius: real, boids: seq<Boid>, i: nat): (d: Vec2)
    requires IsLength(len) && i < |boids| && SeparateDefined(len, bodyRadius, boids, i)
    requires |Crowders(len, bodyRadius, boids, i)| > 0
    ensures var ns := Crowders(len, bodyRadius, boids, i);
            var push := Mean(RepulsionSum(len, boids, i, ns), |ns|);
            && (push == Zero ==> d == Zero)
            && (push != Zero ==> len(d) == BoidMaxSpeed && SameDirection(d, push))
  {
    var ns := Crowders(len, bodyRadius, boids, i);
    AtSpeed(len, Mean(RepulsionSum(len, boids, i, ns), |ns|), BoidMaxSpeed)
  }

  /** What `steer_to_exit` steers toward: full speed toward the exit's
      middle, or standing still on it. */
  function ExitDesired(len: Vec2 -> real, b: Boid): (d: Vec2)
    requires IsLength(len)
    ensures var offset := Sub(ExitTarget, b.position);
            && (offset == Zero ==> d == Zero)
            && (offset != Zero ==> len(d) == BoidMaxSpeed && SameDirection(d, offset))
  {
    AtSpeed(len, Sub(ExitTarget, b.position), BoidMaxSpeed)
  }

  /** `align`: steer toward the flockmates' mean velocity at full speed. */
  function Align(len: Vec2 -> real, bodyRadius: real, boids: seq<Boid>, i: nat): (s: Vec2)
    requires IsLength(len) && i < |boids| && AlignDefined(len, bodyRadius, boids, i)
    ensures len(s) <= BoidMaxForce
    ensures |Flockmates(len, bodyRadius, boids, i)| == 0 ==> s == Zero
    ensures |Flockmates(len, bodyRadius, boids, i)| > 0 ==>
              SteersToward(len, s, AlignDesired(len, bodyRadius, boids, i), boids[i].velocity, 1.0, BoidMaxForce)
  {
    var ns := Flockmates(len, bodyRadius, boids, i);
    if |ns| == 0 then Zero
    else Steer(len, AlignDesired(len, bodyRadius, boids, i), boids[i].velocity, 1.0, BoidMaxForce)
  }

  /** `cohere`: steer toward the flockmates' mean position at full speed. */
  function Cohere(len: Vec2 -> real, bodyRadius: real, boids: seq<Boid>, i: nat): (s: Vec2)
    requires IsLength(len) && i < |boids| && CohereDefined(len, bodyRadius, boids, i)
    ensures len(s) <= BoidMaxForce
    ensures |Flockmates(len, bodyRadius, boids, i)| == 0 ==> s == Zero
    ensures |Flockmates(len, bodyRadius, boids, i)| > 0 ==>
              SteersToward(len, s, CohereDesired(len, bodyRadius, boids, i), boids[i].velocity, 1.0, BoidMaxForce)
  {
    var ns := Flockmates(len, bodyRadius, boids, i);
    if |ns| == 0 then Zero
    else Steer(len, CohereDesired(len, bodyRadius, boids, i), boids[i].velocity, 1.0, BoidMaxForce)
  }

  /** `separate`: steer away from the boids closer than twice the radius,
      each weighted by the inverse distance; a zero mean push is not
      normalised. */
  function Separate(len: Vec2 -> real, bodyRadius: real, boids: seq<Boid>, i: nat): (s: Vec2)
    requires IsLength(len) && i < |boids| && SeparateDefined(len, bodyRadius, boids, i)
    ensures len(s) <= BoidMaxForce
    ensures |Crowders(len, bodyRadius, boids, i)| == 0 ==> s == Zero
    ensures |Crowders(len, bodyRadius, boids, i)| > 0 ==>
              SteersToward(len, s, SeparateDesired(len, bodyRadius, boids, i), boids[i].velocity, 1.0, BoidMaxForce)
  {
    var ns := Crowders(len, bodyRadius, boids, i);
    if |ns| == 0 then Zero
    else Steer(len, SeparateDesired(len, bodyRadius, boids, i), boids[i].velocity, 1.0, BoidMaxForce)
  }

  /** `steer_to_exit`: head for the middle of the exit at full speed; at
      the target itself the desired velocity is zero. */
  function SteerToExit(len: Vec2 -> real, b: Boid): (s: Vec2)
    requires IsLength(len)
    ensures len(s) <= BoidMaxForce
    ensures SteersToward(len, s, ExitDesired(len, b), b.velocity, 1.0, BoidMaxForce)
  {
    Steer(len, ExitDesired(len, b), b.velocity, 1.0, BoidMaxForce)
  }

  /** `flock`: all four behaviours are added to the acceleration, always. */
  function Flock(len: Vec2 -> real, bodyRadius: real, boids: seq<Boid>, i: nat): (b: Boid)
    requires IsLength(len) && i < |boids|
    requires AlignDefined(len, bodyRadius, boids, i) && CohereDefined(len, bodyRadius, boids, i)
    requires SeparateDefined(len, bodyRadius, boids, i)
    ensures b.position == boids[i].position && b.velocity == boids[i].velocity
    ensures b.acceleration ==
              Add(Add(Add(Add(boids[i].acceleration, Align(len, bodyRadius, boids, i)),
                          Cohere(len, bodyRadius, boids, i)),
                      Separate(len, bodyRadius, boids, i)),
                  SteerToExit(len, boids[i]))
  {
    var self := boids[i];
    var a := Add(self.acceleration, Align(len, bodyRadius, boids, i));
    var a' := Add(a, Cohere(len, bodyRadius, boids, i));
    var a'' := Add(a', Separate(len, bodyRadius, boids, i));
    self.(acceleration := Add(a'', SteerToExit(len, self)))
  }

  /** One `flock` changes the acceleration by at most four force caps. */
  lemma FlockForceBound(len: Vec2 -> real, bodyRadius: real, boids: seq<Boid>, i: nat)
    requires IsLength(len) && i < |boids|
    requires AlignDefined(len, bodyRadius, boids, i) && CohereDefined(len, bodyRadius, boids, i)
    requires SeparateDefined(len, bodyRadius, boids, i)
    ensures len(Sub(Flock(len, bodyRadius, boids, i).acceleration, boids[i].acceleration)) <= 4.0 * BoidMaxForce
  {
    FourForces(len, boids[i].acceleration, Align(len, bodyRadius, boids, i),
               Cohere(len, bodyRadius, boids, i), Separate(len, bodyRadius, boids, i),
               SteerToExit(len, boids[i]), BoidMaxForce);
  }

  /** `update`: add the acceleration to the velocity, cap the speed at 3,
      move, and clear the acceleration. */
  function Update(len: Vec2 -> real, b: Boid): (c: Boid)
    requires IsLength(len)
    ensures len(c.velocity) <= BoidMaxSpeed
    ensures Sub(c.position, b.position) == c.velocity
    ensures c.acceleration == Zero
    ensures len(Add(b.velocity, b.acceleration)) <= BoidMaxSpeed ==> c.velocity == Add(b.velocity, b.acceleration)
    ensures len(Add(b.velocity, b.acceleration)) > BoidMaxSpeed ==>
              len(c.velocity) == BoidMaxSpeed && SameDirection(c.velocity, Add(b.velocity, b.acceleration))
  {
    var v := UpdateVelocity(len, b.velocity, b.acceleration, BoidMaxSpeed);
    Boid(Add(b.position, v), v, Zero)
  }
}

=== FILE: boxed_boids.dfy ===
/** The boids.py prototype's box handling: `Boid.edges`, the wall bounce,
    and `resolve_positions`, a clamp pass followed by a pairwise overlap
    split. Steering and `update` are the ones of module Boids with a body
    radius of 15. */
module BoxedBoids {
  import opened Geometry
  import opened Wrappers
  import opened Arena
  import Boids

  /** boids.py's `BOID_RADIUS`; its box and exit are the ones of module
      Arena. */
  const BoidRadius: real := 15.0

  /** The prototype's steering perceives 60 pixels and separates within 30. */
  lemma PrototypeRadii()
    ensures Boids.Perception(BoidRadius) == 60.0 && Boids.SeparationRadius(BoidRadius) == 30.0
  {
  }

  /** The closed vertical span of the exit on the right wall. */
  predicate InExitSpan(y: real) {
    ExitPosition.y <= y <= ExitPosition.y + ExitWidth
  }

  /** `edges`: a coordinate beyond the wall margin is set to the margin and
      that velocity component negated; the right wall does not apply
      within the exit span. A coordinate within the margins, and its
      velocity component, stay. */
  function Edges(b: Boids.Boid): (e: Boids.Boid)
    ensures e.acceleration == b.acceleration
    ensures b.position.x < BoxLeft + BoidRadius ==>
              e.position.x == BoxLeft + BoidRadius && e.velocity.x == -b.velocity.x
    ensures b.position.x > BoxLeft + BoxWidth - BoidRadius && !InExitSpan(b.position.y) ==>
              e.position.x == BoxLeft + BoxWidth - BoidRadius && e.velocity.x == -b.velocity.x
    ensures BoxLeft + BoidRadius <= b.position.x &&
            (b.position.x <= BoxLeft + BoxWidth - BoidRadius || InExitSpan(b.position.y)) ==>
              e.position.x == b.position.x && e.velocity.x == b.velocity.x
    ensures b.position.y < BoxTop + BoidRadius ==>
              e.position.y == BoxTop + BoidRadius && e.velocity.y == -b.velocity.y
    ensures b.position.y > BoxTop + BoxHeight - BoidRadius ==>
              e.position.y == BoxTop + BoxHeight - BoidRadius && e.velocity.y == -b.velocity.y
    ensures BoxTop + BoidRadius <= b.position.y <= BoxTop + BoxHeight - BoidRadius ==>
              e.position.y == b.position.y && e.velocity.y == b.velocity.y
    ensures BoxLeft + BoidRadius <= e.position.x
    ensures e.position.x <= BoxLeft + BoxWidth - BoidRadius || InExitSpan(b.position.y)
    ensures BoxTop + BoidRadius <= e.position.y <= BoxTop + BoxHeight - BoidRadius
  {
    var p := b.position;
    var v := b.velocity;
    var (x, vx) :=
      if p.x < BoxLeft + BoidRadius then (BoxLeft + BoidRadius, -v.x)
      else if p.x > BoxLeft + BoxWidth - BoidRadius && !InExitSpan(p.y) then (BoxLeft + BoxWidth - BoidRadius, -v.x)
      else (p.x, v.x);
    var (y, vy) :=
      if p.y < BoxTop + BoidRadius then (BoxTop + BoidRadius, -v.y)
      else if p.y > BoxTop + BoxHeight - BoidRadius then (BoxTop + BoxHeight - BoidRadius, -v.y)
      else (p.y, v.y);
    Boids.Boid(Vec2(x, y), Vec2(vx, vy), b.acceleration)
  }

  /** A second `edges` changes nothing: the bounce is idempotent. */
  lemma EdgesIdempotent(b: Boids.Boid)
    ensures Edges(Edges(b)) == Edges(b)
  {
  }

  /** The prototype's exit area: past the right margin, within the exit
      span. */
  predicate InExitArea(box: Box, r: real, p: Vec2) {
    p.x > box.left + box.width - r && InExitSpan(p.y)
  }

  /** Pass 1, and the re-clamp after a push: exempt positions stay, the
      others are clamped. */
  function Confine(box: Box, r: real, p: Vec2): (q: Vec2)
    ensures InExitArea(box, r, p) ==> q == p
    ensures !InExitArea(box, r, p) ==> q == Clamp(box, r, p)
  {
    if InExitArea(box, r, p) then p else Clamp(box, r, p)
  }

  /** A position that confining leaves alone: exempt, or inside the inset
      box already. */
  predicate Settled(box: Box, r: real, p: Vec2) {
    InExitArea(box, r, p) || Clamp(box, r, p) == p
  }

  /** Confining settles every position, and a settled position is its own
      confinement. */
  lemma ConfineSettles(box: Box, r: real, p: Vec2)
    ensures Settled(box, r, Confine(box, r, p))
    ensures Settled(box, r, p) ==> Confine(box, r, p) == p
  {
    ClampIdempotent(box, r, p);
  }

  /** Pass 2's split of an overlapping pair at distance `0 < d < 2r`: each
      moves half the overlap along the line between them, in opposite
      directions. */
  function PushApart(len: Vec2 -> real, pi: Vec2, pj: Vec2, r: real): (res: (Vec2, Vec2))
    requires IsLength(len)
    requires 0.0 < len(Sub(pi, pj)) < 2.0 * r
  {
    var d := len(Sub(pi, pj));
    var overlap := 2.0 * r - d;
    var direction := Scale(Sub(pi, pj), 1.0 / d);
    var shift := Scale(direction, overlap / 2.0);
    (Add(pi, shift), Sub(pj, shift))
  }

  /** The split keeps the pair's midpoint, keeps the line between them,
      and leaves them exactly `2r` apart. */
  lemma PushApartSeparates(len: Vec2 -> real, pi: Vec2, pj: Vec2, r: real)
    requires IsLength(len)
    requires 0.0 < len(Sub(pi, pj)) < 2.0 * r
    ensures var (qi, qj) := PushApart(len, pi, pj, r);
            && Add(qi, qj) == Add(pi, pj)
            && SameDirection(Sub(qi, qj), Sub(pi, pj))
            && len(Sub(qi, qj)) == 2.0 * r
  {
    var d := len(Sub(pi, pj));
    var diff := Sub(pi, pj);
    var k := 1.0 / d * ((2.0 * r - d) / 2.0);
    var (qi, qj) := PushApart(len, pi, pj, r);
    assert qi == Add(pi, Scale(diff, k));
    assert qj == Sub(pj, Scale(diff, k));
    var g := 2.0 * r / d;
    SplitFactor(d, r);
    assert Sub(qi, qj) == Scale(diff, g);
    assert len(Scale(diff, g)) == g * d;
  }

  /** Each side moves by `k` times the difference, so the difference grows
      by the factor `1 + 2k = 2r / d`. */
  lemma SplitFactor(d: real, r: real)
    requires 0.0 < d < 2.0 * r
    ensures 1.0 + 2.0 * (1.0 / d * ((2.0 * r - d) / 2.0)) == 2.0 * r / d
    ensures 2.0 * r / d > 0.0 && 2.0 * r / d * d == 2.0 * r
  {
  }

  /** No two positions closer than `2r`. */
  predicate Separated(len: Vec2 -> real, ps: seq<Vec2>, r: real) {
    forall i, j :: 0 <= i < j < |ps| ==> len(Sub(ps[i], ps[j])) >= 2.0 * r
  }

  predicate AllSettled(box: Box, r: real, ps: seq<Vec2>) {
    forall k :: 0 <= k < |ps| ==> Settled(box, r, ps[k])
  }

  /** Where a coincident pair ends. At distance 0, numpy's
      `(pos_i - pos_j) / 0` is NaN on both axes and so are both moved
      positions; a NaN position is never in the exit area, and Python's
      `max(lo, min(nan, hi))` is `lo`, so the re-clamp puts both on the
      top-left corner of the inset box. */
  function NaNCorner(box: Box, r: real): (c: Vec2)
    ensures Settled(box, r, c)
  {
    Vec2(box.left + r, box.top + r)
  }

  /** Pass 2's visit of the pair `i < j`: a pair closer than `2r` is pushed
      apart and both are confined again (a coincident pair lands on the
      corner); a pair at least `2r` apart stays. Nothing else moves, and
      settled positions stay settled. */
  function Visit(len: Vec2 -> real, box: Box, r: real, ps: seq<Vec2>, i: nat, j: nat): (qs: seq<Vec2>)
    requires IsLength(len) && i < j < |ps|
    ensures |qs| == |ps|
    ensures forall k :: 0 <= k < |ps| && k != i && k != j ==> qs[k] == ps[k]
    ensures AllSettled(box, r, ps) ==> AllSettled(box, r, qs)
  {
    var d := len(Sub(ps[i], ps[j]));
    if d < 2.0 * r then
      if d == 0.0 then
        ps[i := NaNCorner(box, r)][j := NaNCorner(box, r)]
      else
        var (qi, qj) := PushApart(len, ps[i], ps[j], r);
        ConfineSettles(box, r, qi);
        ConfineSettles(box, r, qj);
        ps[i := Confine(box, r, qi)][j := Confine(box, r, qj)]
    else ps
  }

  /** A pair at least `2r` apart is left alone; a coincident pair is sent
      to the corner; an overlapping pair whose pushed positions need no
      re-clamp ends exactly `2r` apart, its midpoint kept. */
  lemma VisitOutcome(len: Vec2 -> real, box: Box, r: real, ps: seq<Vec2>, i: nat, j: nat)
    requires IsLength(len) && i < j < |ps|
    ensures var qs := Visit(len, box, r, ps, i, j);
            && (len(Sub(ps[i], ps[j])) >= 2.0 * r ==> qs == ps)
            && (len(Sub(ps[i], ps[j])) == 0.0 < 2.0 * r ==> qs[i] == NaNCorner(box, r) && qs[j] == NaNCorner(box, r))
            && (0.0 < len(Sub(ps[i], ps[j])) < 2.0 * r &&
                Settled(box, r, PushApart(len, ps[i], ps[j], r).0) &&
                Settled(box, r, PushApart(len, ps[i], ps[j], r).1) ==>
                  len(Sub(qs[i], qs[j])) == 2.0 * r && Add(qs[i], qs[j]) == Add(ps[i], ps[j]))
  {
    var d := len(Sub(ps[i], ps[j]));
    if 0.0 < d < 2.0 * r {
      var (qi, qj) := PushApart(len, ps[i], ps[j], r);
      PushApartSeparates(len, ps[i], ps[j], r);
      ConfineSettles(box, r, qi);
      ConfineSettles(box, r, qj);
    }
  }

  /** Pass 2 over `n` positions from the pair `(i, j)` on, in the loops'
      order: `(i, j)`, `(i, j + 1)`, ..., then every pair of the later
      rows, each `visit` seeing the positions the earlier ones left. */
  function Pairs(visit: (seq<Vec2>, nat, nat) -> seq<Vec2>, n: nat, ps: seq<Vec2>, i: nat, j: nat): seq<Vec2>
    requires i < j <= n + 1
    decreases n + 1 - i, n + 1 - j
  {
    if i >= n then ps
    else if j >= n then Pairs(visit, n, ps, i + 1, i + 2)
    else Pairs(visit, n, visit(ps, i, j), i, j + 1)
  }

  /** Pass 2's two loops over an abstract `visit`. */
  method RunPairs(visit: (seq<Vec2>, nat, nat) -> seq<Vec2>, n: nat, ps: seq<Vec2>) returns (qs: seq<Vec2>)
    ensures qs == Pairs(visit, n, ps, 0, 1)
  {
    qs := ps;
    var i := 0;
    while i < n
      invariant i <= n
      invariant Pairs(visit, n, qs, i, i + 1) == Pairs(visit, n, ps, 0, 1)
    {
      var j := i + 1;
      while j < n
        invariant i + 1 <= j <= n
        invariant Pairs(visit, n, qs, i, j) == Pairs(visit, n, ps, 0, 1)
      {
        qs := visit(qs, i, j);
        j := j + 1;
      }
      i := i + 1;
    }
  }

  /** A property every visit keeps holds after pass 2. */
  lemma {:induction false} PairsKeep(visit: (seq<Vec2>, nat, nat) -> seq<Vec2>, inv: seq<Vec2> -> bool,
                                     n: nat, ps: seq<Vec2>, i: nat, j: nat)
    requires i < j <= n + 1
    requires forall qs: seq<Vec2>, a: nat, b: nat :: inv(qs) ==> inv(visit(qs, a, b))
    requires inv(ps)
    ensures inv(Pairs(visit, n, ps, i, j))
    decreases n + 1 - i, n + 1 - j
  {
    if i >= n {
    } else if j >= n {
      PairsKeep(visit, inv, n, ps, i + 1, i + 2);
    } else {
      PairsKeep(visit, inv, n, visit(ps, i, j), i, j + 1);
    }
  }

  /** Positions no visit moves come through pass 2 unchanged. */
  lemma {:induction false} PairsFixed(visit: (seq<Vec2>, nat, nat) -> seq<Vec2>, n: nat, ps: seq<Vec2>, i: nat, j: nat)
    requires i < j <= n + 1
    requires forall a: nat, b: nat :: visit(ps, a, b) == ps
    ensures Pairs(visit, n, ps, i, j) == ps
    decreases n + 1 - i, n + 1 - j
  {
    if i >= n {
    } else if j >= n {
      PairsFixed(visit, n, ps, i + 1, i + 2);
    } else {
      PairsFixed(visit, n, ps, i, j + 1);
    }
  }

  /** The visit of `resolve_positions`: `Visit` on a pair of the list. */
  function VisitOf(len: Vec2 -> real, box: Box, r: real): (seq<Vec2>, nat, nat) -> seq<Vec2>
    requires IsLength(len)
  {
    (ps: seq<Vec2>, i: nat, j: nat) => if i < j < |ps| then Visit(len, box, r, ps, i, j) else ps
  }

  /** `m` settled positions. */
  function SettledList(box: Box, r: real, m: nat): seq<Vec2> -> bool {
    (ps: seq<Vec2>) => |ps| == m && AllSettled(box, r, ps)
  }

  /** Every visit keeps the list's length and keeps it settled. */
  lemma VisitKeepsSettled(len: Vec2 -> real, box: Box, r: real, m: nat)
    requires IsLength(len)
    ensures forall qs: seq<Vec2>, a: nat, b: nat ::
              SettledList(box, r, m)(qs) ==> SettledList(box, r, m)(VisitOf(len, box, r)(qs, a, b))
  {
  }

  /** No visit moves positions that are `2r` apart. */
  lemma VisitKeepsSeparated(len: Vec2 -> real, box: Box, r: real, ps: seq<Vec2>)
    requires IsLength(len) && Separated(len, ps, r)
    ensures forall a: nat, b: nat :: VisitOf(len, box, r)(ps, a, b) == ps
  {
    forall a: nat, b: nat | a < b < |ps|
      ensures Visit(len, box, r, ps, a, b) == ps
    {
      VisitOutcome(len, box, r, ps, a, b);
    }
  }

  /** Pass 1: every position confined. */
  function Confined(box: Box, r: real, ps: seq<Vec2>): (qs: seq<Vec2>)
    ensures |qs| == |ps| && AllSettled(box, r, qs)
    ensures forall k :: 0 <= k < |ps| ==> qs[k] == Confine(box, r, ps[k])
    ensures AllSettled(box, r, ps) ==> qs == ps
  {
    forall k | 0 <= k < |ps|
      ensures Settled(box, r, Confine(box, r, ps[k]))
      ensures Settled(box, r, ps[k]) ==> Confine(box, r, ps[k]) == ps[k]
    {
      ConfineSettles(box, r, ps[k]);
    }
    seq(|ps|, k requires 0 <= k < |ps| => Confine(box, r, ps[k]))
  }

  /** `resolve_positions`: confine every position, then visit every pair
      `i < j` in order, pushing overlapping pairs apart and confining both
      again. The result is pass 2 applied to pass 1's positions; positions
      already settled and `2r` apart come back unchanged. */
  method ResolvePositions(len: Vec2 -> real, box: Box, r: real, positions: seq<Vec2>)
    returns (res: seq<Vec2>)
    requires IsLength(len)
    ensures res == Pairs(VisitOf(len, box, r), |positions|, Confined(box, r, positions), 0, 1)
    ensures |res| == |positions|
    ensures AllSettled(box, r, res)
    ensures AllSettled(box, r, positions) && Separated(len, positions, r) ==> res == positions
  {
    var n := |positions|;
    var current := positions;
    var i := 0;
    while i < n
      invariant 0 <= i <= n == |current|
      invariant forall k :: 0 <= k < i ==> current[k] == Confine(box, r, positions[k])
      invariant forall k :: i <= k < n ==> current[k] == positions[k]
    {
      current := current[i := Confine(box, r, current[i])];
      i := i + 1;
    }
    assert current == Confined(box, r, positions);
    res := RunPairs(VisitOf(len, box, r), n, current);
    VisitKeepsSettled(len, box, r, n);
    PairsKeep(VisitOf(len, box, r), SettledList(box, r, n), n, current, 0, 1);
    if AllSettled(box, r, positions) && Separated(len, positions, r) {
      VisitKeepsSeparated(len, box, r, positions);
      PairsFixed(VisitOf(len, box, r), n, positions, 0, 1);
    }
  }
}

=== FILE: geometry.dfy ===
/** Two-dimensional real vectors, the stand-in for pygame's Vector2.

    The Euclidean length (pygame's `length()`, numpy's `norm`, `math.dist`)
    needs a square root, which Dafny's reals do not provide. Every member
    that measures a vector therefore receives the length function `len` as a
    parameter together with the requirement `IsLength(len)`: the length is a
    norm. Normalising, scaling to a length and capping a length are defined
    from it once, here. */
module Geometry {

  datatype Vec2 = Vec2(x: real, y: real)

  const Zero := Vec2(0.0, 0.0)

  function Add(a: Vec2, b: Vec2): Vec2 {
    Vec2(a.x + b.x, a.y + b.y)
  }

  function Sub(a: Vec2, b: Vec2): Vec2 {
    Vec2(a.x - b.x, a.y - b.y)
  }

  function Scale(v: Vec2, k: real): Vec2 {
    Vec2(v.x * k, v.y * k)
  }

  function Abs(r: real): real {
    if r < 0.0 then -r else r
  }

  function Max(a: real, b: real): real {
    if a >= b then a else b
  }

  function Min(a: real, b: real): real {
    if a <= b then a else b
  }

  /** `len` is a norm: non-negative, zero exactly on the zero vector,
      absolutely homogeneous, and subadditive (the triangle inequality). */
  ghost predicate IsLength(len: Vec2 -> real) {
    && (forall v :: 0.0 <= len(v))
    && (forall v :: len(v) == 0.0 <==> v == Zero)
    && (forall v, k :: len(Scale(v, k)) == Abs(k) * len(v))
    && (forall a, b :: len(Add(a, b)) <= len(a) + len(b))
  }

  /** `u` points the same way as `v`: a positive multiple of it. */
  ghost predicate SameDirection(u: Vec2, v: Vec2) {
    exists k :: k > 0.0 && u == Scale(v, k)
  }

  /** pygame's `normalize()`: the unit vector along `v`; pygame raises on
      the zero vector, hence the requirement. */
  function Normalize(len: Vec2 -> real, v: Vec2): (u: Vec2)
    requires IsLength(len)
    requires v != Zero
    ensures len(u) == 1.0
    ensures SameDirection(u, v)
  {
    var k := 1.0 / len(v);
    assert len(Scale(v, k)) == k * len(v);
    Scale(v, k)
  }

  /** pygame's `scale_to_length(l)`: `v` stretched to length `l`; pygame
      raises on the zero vector, hence the requirement. */
  function ScaleToLength(len: Vec2 -> real, v: Vec2, l: real): (u: Vec2)
    requires IsLength(len)
    requires v != Zero && 0.0 <= l
    ensures len(u) == l
    ensures l > 0.0 ==> SameDirection(u, v)
  {
    var k := l / len(v);
    assert len(Scale(v, k)) == k * len(v);
    Scale(v, k)
  }

  /** The recurring `if v.length() > m: v.scale_to_length(m)` cap. */
  function Limit(len: Vec2 -> real, v: Vec2, m: real): (u: Vec2)
    requires IsLength(len)
    requires 0.0 <= m
    ensures len(u) <= m
    ensures len(v) <= m ==> u == v
    ensures len(v) > m ==> len(u) == m && (m > 0.0 ==> SameDirection(u, v))
  {
    if len(v) > m then
      ScaleToLength(len, v, m)
    else
      v
  }

  /** `normalize()` guarded by `length() > 0`, as the steering code writes
      it: the zero vector stays zero. */
  function NormalizeOrZero(len: Vec2 -> real, v: Vec2): (u: Vec2)
    requires IsLength(len)
    ensures v == Zero ==> u == Zero
    ensures v != Zero ==> len(u) == 1.0 && SameDirection(u, v)
  {
    if len(v) > 0.0 then Normalize(len, v) else v
  }

  /** `s` is a non-negative multiple of `d`: it points along `d` or is
      zero, never against it. */
  ghost predicate Toward(s: Vec2, d: Vec2) {
    exists c :: 0.0 <= c && s == Scale(d, c)
  }

  /** `s` is the steering from `velocity` toward `desired` with `weight`
      under the force cap `maxForce`: along the difference, the weighted
      difference itself when that is within the cap, and exactly the cap
      long when it is not. */
  ghost predicate SteersToward(len: Vec2 -> real, s: Vec2, desired: Vec2, velocity: Vec2,
                               weight: real, maxForce: real) {
    var push := Scale(Sub(desired, velocity), weight);
    && len(s) <= maxForce
    && Toward(s, Sub(desired, velocity))
    && (len(push) <= maxForce ==> s == push)
    && (len(push) > maxForce ==> len(s) == maxForce)
  }

  /** A unit vector along `v` times a positive speed is that speed long
      and still along `v`. */
  lemma ScaledUnit(len: Vec2 -> real, u: Vec2, v: Vec2, speed: real)
    requires IsLength(len) && len(u) == 1.0 && SameDirection(u, v)
    ensures 0.0 < speed ==> len(Scale(u, speed)) == speed && SameDirection(Scale(u, speed), v)
  {
    var k :| k > 0.0 && u == Scale(v, k);
    assert Scale(u, speed) == Scale(v, k * speed);
    assert len(Scale(u, speed)) == Abs(speed) * len(u);
  }

  /** `v.normalize() * speed`, guarded by `v.length() > 0` as the steering
      code writes it: full speed along `v`, the zero vector left alone.
      Where the source normalises unguarded, `v` is known non-zero and the
      guard never acts. */
  function AtSpeed(len: Vec2 -> real, v: Vec2, speed: real): (d: Vec2)
    requires IsLength(len)
    ensures v == Zero ==> d == Zero
    ensures v != Zero && 0.0 < speed ==> len(d) == speed && SameDirection(d, v)
  {
    if v == Zero then Zero
    else
      ScaledUnit(len, Normalize(len, v), v, speed);
      Scale(Normalize(len, v), speed)
  }

  /** The tail every steering behaviour shares: the desired velocity minus
      the current one, times `weight`, capped at `maxForce`. */
  function Steer(len: Vec2 -> real, desired: Vec2, velocity: Vec2,
                 weight: real, maxForce: real): (s: Vec2)
    requires IsLength(len)
    requires 0.0 <= maxForce
    ensures len(s) <= maxForce
    ensures len(Scale(Sub(desired, velocity), weight)) <= maxForce ==>
              s == Scale(Sub(desired, velocity), weight)
    ensures len(Scale(Sub(desired, velocity), weight)) > maxForce ==>
              len(s) == maxForce &&
              (maxForce > 0.0 ==> SameDirection(s, Scale(Sub(desired, velocity), weight)))
    ensures 0.0 <= weight ==> SteersToward(len, s, desired, velocity, weight, maxForce)
  {
    LimitToward(len, Sub(desired, velocity), weight, maxForce);
    Limit(len, Scale(Sub(desired, velocity), weight), maxForce)
  }

  /** Capping a non-negative multiple of `d` leaves a non-negative multiple
      of `d`. */
  lemma LimitToward(len: Vec2 -> real, d: Vec2, weight: real, m: real)
    requires IsLength(len) && 0.0 <= m
    ensures 0.0 <= weight ==> Toward(Limit(len, Scale(d, weight), m), d)
  {
    var push := Scale(d, weight);
    var s := Limit(len, push, m);
    if 0.0 <= weight {
      if len(push) <= m {
        assert s == Scale(d, weight);
      } else if m > 0.0 {
        var k :| k > 0.0 && s == Scale(push, k);
        assert s == Scale(d, weight * k);
      } else {
        assert s == Scale(d, 0.0);
      }
    }
  }

  /** A sum of vectors each no longer than `m` is no longer than `m` times
      their number. */
  lemma SumOfBounded(len: Vec2 -> real, a: Vec2, b: Vec2, ma: real, mb: real)
    requires IsLength(len)
    requires len(a) <= ma && len(b) <= mb
    ensures len(Add(a, b)) <= ma + mb
  {
  }

  /** Adding three forces each capped at `m` moves a vector by at most 3m. */
  lemma ThreeForces(len: Vec2 -> real, base: Vec2, a: Vec2, b: Vec2, c: Vec2, m: real)
    requires IsLength(len)
    requires len(a) <= m && len(b) <= m && len(c) <= m
    ensures len(Sub(Add(Add(Add(base, a), b), c), base)) <= 3.0 * m
  {
    assert Sub(Add(Add(Add(base, a), b), c), base) == Add(Add(a, b), c);
    SumOfBounded(len, a, b, m, m);
    SumOfBounded(len, Add(a, b), c, 2.0 * m, m);
  }

  /** Adding four forces each capped at `m` moves a vector by at most 4m. */
  lemma FourForces(len: Vec2 -> real, base: Vec2, a: Vec2, b: Vec2, c: Vec2, d: Vec2, m: real)
    requires IsLength(len)
    requires len(a) <= m && len(b) <= m && len(c) <= m && len(d) <= m
    ensures len(Sub(Add(Add(Add(Add(base, a), b), c), d), base)) <= 4.0 * m
  {
    assert Sub(Add(Add(Add(Add(base, a), b), c), d), base) == Add(Add(Add(a, b), c), d);
    SumOfBounded(len, a, b, m, m);
    SumOfBounded(len, Add(a, b), c, 2.0 * m, m);
    SumOfBounded(len, Add(Add(a, b), c), d, 3.0 * m, m);
  }

  /** The velocity half of every `update()`: add the acceleration, then
      rescale to `maxSpeed` when too fast. */
  function UpdateVelocity(len: Vec2 -> real, velocity: Vec2, acceleration: Vec2,
                          maxSpeed: real): (v: Vec2)
    requires IsLength(len)
    requires 0.0 <= maxSpeed
    ensures len(v) <= maxSpeed
    ensures len(Add(velocity, acceleration)) <= maxSpeed ==> v == Add(velocity, acceleration)
    ensures len(Add(velocity, acceleration)) > maxSpeed ==>
              len(v) == maxSpeed && (maxSpeed > 0.0 ==> SameDirection(v, Add(velocity, acceleration)))
  {
    Limit(len, Add(velocity, acceleration), maxSpeed)
  }
}

=== FILE: metrics.dfy ===
/** metrics.py's bookkeeping: per-agent tick counters, escape flags and
    panic histories, indexed by agent id, with the lookups and summary
    statistics read at the end of a run. */
module Metrics {
  import opened Wrappers
  import Agents

  datatype Metrics = Metrics(
    numberOfAgents: nat,
    agentTicks: seq<int>,
    agentPanic: seq<seq<real>>,
    agentEscaped: seq<bool>)

  /** One entry per agent in each list. */
  predicate Valid(m: Metrics) {
    |m.agentTicks| == m.numberOfAgents && |m.agentPanic| == m.numberOfAgents &&
    |m.agentEscaped| == m.numberOfAgents
  }

  /** `Metrics.__init__`: `n` counters at `initialTick`, `n` empty panic
      histories, `n` cleared escape flags. */
  function Init(n: nat, initialTick: int): (m: Metrics)
    ensures Valid(m) && m.numberOfAgents == n
    ensures forall id :: 0 <= id < n ==>
              m.agentTicks[id] == initialTick && m.agentPanic[id] == [] && !m.agentEscaped[id]
  {
    Metrics(n, seq(n, _ => initialTick), seq(n, _ => []), seq(n, _ => false))
  }

  /** `increment_tick`: the counter of every agent still inside grows by
      one; escaped agents' counters stay. */
  function IncrementTick(m: Metrics): (m': Metrics)
    requires Valid(m)
    ensures Valid(m') && m' == m.(agentTicks := m'.agentTicks)
    ensures forall id :: 0 <= id < m.numberOfAgents ==>
              m'.agentTicks[id] == m.agentTicks[id] + (if m.agentEscaped[id] then 0 else 1)
  {
    m.(agentTicks := seq(m.numberOfAgents, id requires 0 <= id < m.numberOfAgents =>
                           if m.agentEscaped[id] then m.agentTicks[id] else m.agentTicks[id] + 1))
  }

  /** Every agent's id indexes the lists. */
  predicate KnownIds(m: Metrics, agents: seq<Agents.Agent>) {
    forall k :: 0 <= k < |agents| ==> agents[k].id < m.numberOfAgents
  }

  /** Some agent in the list carries `id`. */
  predicate Listed(agents: seq<Agents.Agent>, id: nat) {
    exists k :: 0 <= k < |agents| && agents[k].id == id
  }

  /** `record_agent_escape`: the listed agents' flags are set; no flag is
      ever cleared and no other flag changes. */
  function RecordAgentEscape(m: Metrics, agents: seq<Agents.Agent>): (m': Metrics)
    requires Valid(m) && KnownIds(m, agents)
    ensures Valid(m') && m' == m.(agentEscaped := m'.agentEscaped)
    ensures forall id :: 0 <= id < m.numberOfAgents ==>
              (m'.agentEscaped[id] <==> m.agentEscaped[id] || Listed(agents, id))
    decreases |agents|
  {
    if |agents| == 0 then m
    else
      var m1 := m.(agentEscaped := m.agentEscaped[agents[0].id := true]);
      var m' := RecordAgentEscape(m1, agents[1..]);
      assert forall id :: Listed(agents, id) <==> id == agents[0].id || Listed(agents[1..], id) by {
        forall id
          ensures Listed(agents, id) ==> id == agents[0].id || Listed(agents[1..], id)
        {
          if Listed(agents, id) {
            var k :| 0 <= k < |agents| && agents[k].id == id;
            if k > 0 {
              assert agents[1..][k - 1].id == id;
            }
          }
        }
        forall id | Listed(agents[1..], id)
          ensures Listed(agents, id)
        {
          var k :| 0 <= k < |agents[1..]| && agents[1..][k].id == id;
          assert agents[k + 1].id == id;
        }
      }
      m'
  }

  /** The panic levels the list reports for `id`, in list order. */
  function PanicSamples(agents: seq<Agents.Agent>, id: nat): seq<real> {
    if |agents| == 0 then []
    else (if agents[0].id == id then [agents[0].panic] else []) + PanicSamples(agents[1..], id)
  }

  /** `update_panic_levels`: each history of an agent still inside gains
      exactly the panic levels listed for that agent, in list order;
      escaped agents' histories never change. */
  function UpdatePanicLevels(m: Metrics, agents: seq<Agents.Agent>): (m': Metrics)
    requires Valid(m) && KnownIds(m, agents)
    ensures Valid(m') && m' == m.(agentPanic := m'.agentPanic)
    ensures forall id :: 0 <= id < m.numberOfAgents ==>
              m'.agentPanic[id] == m.agentPanic[id] + (if m.agentEscaped[id] then [] else PanicSamples(agents, id))
    decreases |agents|
  {
    if |agents| == 0 then m
    else
      var a := agents[0];
      var m1 := if m.agentEscaped[a.id] then m
                else m.(agentPanic := m.agentPanic[a.id := m.agentPanic[a.id] + [a.panic]]);
      var m' := UpdatePanicLevels(m1, agents[1..]);
      assert forall id :: 0 <= id < m.numberOfAgents ==>
        m'.agentPanic[id] == m.agentPanic[id] + (if m.agentEscaped[id] then [] else PanicSamples(agents, id)) by {
        forall id | 0 <= id < m.numberOfAgents {
          AppendStep(m.agentPanic[id], m1.agentPanic[id], m'.agentPanic[id], m.agentEscaped[id], agents, id);
        }
      }
      m'
  }

  /** One step of `update_panic_levels` for one history: the first listed
      agent's sample, followed by what the rest of the list appends. */
  lemma AppendStep(before: seq<real>, mid: seq<real>, after: seq<real>, escaped: bool,
                   agents: seq<Agents.Agent>, id: nat)
    requires |agents| > 0
    requires mid == before + (if !escaped && agents[0].id == id then [agents[0].panic] else [])
    requires after == mid + (if escaped then [] else PanicSamples(agents[1..], id))
    ensures after == before + (if escaped then [] else PanicSamples(agents, id))
  {
    var first := if agents[0].id == id then [agents[0].panic] else [];
    var rest := PanicSamples(agents[1..], id);
    assert PanicSamples(agents, id) == first + rest;
    if !escaped {
      calc {
        after;
        (before + first) + rest;
        { assert (before + first) + rest == before + (first + rest); }
        before + PanicSamples(agents, id);
      }
    }
  }

  /** An agent that is not listed keeps its history. */
  lemma {:induction false} UnlistedNoSamples(agents: seq<Agents.Agent>, id: nat)
    requires !Listed(agents, id)
    ensures PanicSamples(agents, id) == []
  {
    if |agents| > 0 {
      UnlistedNoSamples(agents[1..], id);
    }
  }

  datatype MetricsError = InvalidAgentId(agentId: int) | EmptyTicks

  /** `get_last_tick_of_agent`: the counter of a known id, `ValueError`
      for any other. */
  function GetLastTickOfAgent(m: Metrics, agentId: int): (r: Result<int, MetricsError>)
    requires Valid(m)
    ensures r.Success? <==> 0 <= agentId < m.numberOfAgents
    ensures r.Success? ==> r.value == m.agentTicks[agentId]
    ensures r.Failure? ==> r.error == InvalidAgentId(agentId)
  {
    if 0 <= agentId < m.numberOfAgents then Success(m.agentTicks[agentId])
    else Failure(InvalidAgentId(agentId))
  }

  /** The largest element of a non-empty list. */
  function MaxOf(s: seq<int>): (x: int)
    requires |s| > 0
    ensures x in s && forall k :: 0 <= k < |s| ==> s[k] <= x
  {
    if |s| == 1 then s[0]
    else
      var rest := MaxOf(s[1..]);
      assert forall k :: 1 <= k < |s| ==> s[k] == s[1..][k - 1];
      if s[0] >= rest then s[0] else rest
  }

  /** The smallest element of a non-empty list. */
  function MinOf(s: seq<int>): (x: int)
    requires |s| > 0
    ensures x in s && forall k :: 0 <= k < |s| ==> x <= s[k]
  {
    if |s| == 1 then s[0]
    else
      var rest := MinOf(s[1..]);
      assert forall k :: 1 <= k < |s| ==> s[k] == s[1..][k - 1];
      if s[0] <= rest then s[0] else rest
  }

  /** `last_tick`: the largest counter; `max` of an empty list raises. */
  function LastTick(m: Metrics): (r: Result<int, MetricsError>)
    requires Valid(m)
    ensures r.Failure? <==> m.numberOfAgents == 0
    ensures r.Success? ==> r.value in m.agentTicks
    ensures r.Success? ==> forall id :: 0 <= id < m.numberOfAgents ==> m.agentTicks[id] <= r.value
  {
    if |m.agentTicks| == 0 then Failure(EmptyTicks) else Success(MaxOf(m.agentTicks))
  }

  function Sum(s: seq<real>): real {
    if |s| == 0 then 0.0 else s[0] + Sum(s[1..])
  }

  /** Every element between `lo` and `hi` puts the sum between `n lo` and
      `n hi`. */
  lemma {:induction false} SumBetween(s: seq<real>, lo: real, hi: real)
    requires forall k :: 0 <= k < |s| ==> lo <= s[k] <= hi
    ensures |s| as real * lo <= Sum(s) <= |s| as real * hi
  {
    if |s| > 0 {
      assert forall k :: 0 <= k < |s[1..]| ==> s[1..][k] == s[k + 1];
      SumBetween(s[1..], lo, hi);
    }
  }

  /** The mean of a list, 0 for the empty one. */
  function Average(s: seq<real>): (a: real)
    ensures |s| == 0 ==> a == 0.0
    ensures |s| > 0 ==> a * |s| as real == Sum(s)
  {
    if |s| == 0 then 0.0 else Sum(s) / |s| as real
  }

  /** A non-empty list's mean lies within any bounds of its elements. */
  lemma AverageBetween(s: seq<real>, lo: real, hi: real)
    requires |s| > 0
    requires forall k :: 0 <= k < |s| ==> lo <= s[k] <= hi
    ensures lo <= Average(s) <= hi
  {
    SumBetween(s, lo, hi);
  }

  /** `calculate_average_panic`: one mean per agent, 0 for an empty
      history. */
  function CalculateAveragePanic(m: Metrics): (avgs: seq<real>)
    requires Valid(m)
    ensures |avgs| == m.numberOfAgents
    ensures forall id :: 0 <= id < m.numberOfAgents ==> avgs[id] == Average(m.agentPanic[id])
  {
    seq(m.numberOfAgents, id requires 0 <= id < m.numberOfAgents => Average(m.agentPanic[id]))
  }

  /** A history of non-negative panic levels has a non-negative mean. */
  lemma AveragePanicNonNegative(m: Metrics, id: nat)
    requires Valid(m) && id < m.numberOfAgents
    requires forall k :: 0 <= k < |m.agentPanic[id]| ==> 0.0 <= m.agentPanic[id][k]
    ensures 0.0 <= CalculateAveragePanic(m)[id]
  {
    var h := m.agentPanic[id];
    if |h| > 0 {
      AverageBetween(h, 0.0, UpperBound(h));
    }
  }

  /** A bound on every element of a list. */
  function UpperBound(s: seq<real>): (b: real)
    ensures forall k :: 0 <= k < |s| ==> s[k] <= b
  {
    if |s| == 0 then 0.0
    else
      var rest := UpperBound(s[1..]);
      assert forall k :: 1 <= k < |s| ==> s[k] == s[1..][k - 1];
      if s[0] >= rest then s[0] else rest
  }

  /** The ids below `n` of the agents that have escaped, in increasing
      order, each once. */
  function EscapedIds(m: Metrics, n: nat): (ids: seq<nat>)
    requires Valid(m) && n <= m.numberOfAgents
    ensures forall a, b :: 0 <= a < b < |ids| ==> ids[a] < ids[b]
    ensures forall k :: 0 <= k < |ids| ==> ids[k] < n && m.agentEscaped[ids[k]]
    ensures forall id :: 0 <= id < n && m.agentEscaped[id] ==> id in ids
  {
    if n == 0 then []
    else
      var ids := EscapedIds(m, n - 1);
      if m.agentEscaped[n - 1] then ids + [n - 1] else ids
  }

  /** The escaped agents' counters, in id order: `valid_times`, one entry
      per escaped agent. */
  function EscapeTimes(m: Metrics, n: nat): (ts: seq<int>)
    requires Valid(m) && n <= m.numberOfAgents
    ensures |ts| == |EscapedIds(m, n)|
    ensures forall k :: 0 <= k < |ts| ==> ts[k] == m.agentTicks[EscapedIds(m, n)[k]]
    ensures forall t :: t in ts <==> exists id :: 0 <= id < n && m.agentEscaped[id] && m.agentTicks[id] == t
    ensures |ts| == 0 <==> forall id :: 0 <= id < n ==> !m.agentEscaped[id]
  {
    if n == 0 then []
    else
      var ts := EscapeTimes(m, n - 1);
      if m.agentEscaped[n - 1] then ts + [m.agentTicks[n - 1]] else ts
  }

  /** The sum of the escaped agents' counters below `n`, id by id. */
  function EscapedTickSum(m: Metrics, n: nat): real
    requires Valid(m) && n <= m.numberOfAgents
  {
    if n == 0 then 0.0
    else EscapedTickSum(m, n - 1) + (if m.agentEscaped[n - 1] then m.agentTicks[n - 1] as real else 0.0)
  }

  /** Appending an element adds it to the sum. */
  lemma {:induction false} SumAppend(s: seq<real>, x: real)
    ensures Sum(s + [x]) == Sum(s) + x
  {
    if |s| > 0 {
      assert (s + [x])[1..] == s[1..] + [x];
      SumAppend(s[1..], x);
    }
  }

  /** Appending a counter adds it to the sum of the counters as reals. */
  lemma {:induction false} AsRealsSumAppend(s: seq<int>, x: int)
    ensures Sum(AsReals(s + [x])) == Sum(AsReals(s)) + x as real
  {
    assert AsReals(s + [x]) == AsReals(s) + [x as real];
    SumAppend(AsReals(s), x as real);
  }

  /** `sum(valid_times)` is the sum of the escaped agents' counters. */
  lemma {:induction false} EscapeTimesSum(m: Metrics, n: nat)
    requires Valid(m) && n <= m.numberOfAgents
    ensures Sum(AsReals(EscapeTimes(m, n))) == EscapedTickSum(m, n)
  {
    if n > 0 {
      EscapeTimesSum(m, n - 1);
      EscapeTimesSumStep(m, n);
    }
  }

  /** One more id keeps the two sums equal. */
  lemma EscapeTimesSumStep(m: Metrics, n: nat)
    requires Valid(m) && 0 < n <= m.numberOfAgents
    requires Sum(AsReals(EscapeTimes(m, n - 1))) == EscapedTickSum(m, n - 1)
    ensures Sum(AsReals(EscapeTimes(m, n))) == EscapedTickSum(m, n)
  {
    var before := EscapeTimes(m, n - 1);
    if m.agentEscaped[n - 1] {
      assert EscapeTimes(m, n) == before + [m.agentTicks[n - 1]];
      AsRealsSumAppend(before, m.agentTicks[n - 1]);
    } else {
      assert EscapeTimes(m, n) == before;
    }
  }

  /** Insert into a sorted list. */
  function Insert(x: int, s: seq<int>): (t: seq<int>)
    requires Sorted(s)
    ensures Sorted(t) && multiset(t) == multiset(s) + multiset{x}
    ensures forall k :: 0 <= k < |t| ==> t[k] == x || t[k] in s
  {
    if |s| == 0 then [x]
    else if x <= s[0] then [x] + s
    else
      assert s == [s[0]] + s[1..];
      var rest := Insert(x, s[1..]);
      SortedCons(s[0], rest);
      [s[0]] + rest
  }

  /** A lower bound of a sorted list can go in front of it. */
  lemma SortedCons(h: int, rest: seq<int>)
    requires Sorted(rest)
    requires forall k :: 0 <= k < |rest| ==> h <= rest[k]
    ensures Sorted([h] + rest)
  {
    var t := [h] + rest;
    forall i, j | 0 <= i < j < |t|
      ensures t[i] <= t[j]
    {
      assert t[j] == rest[j - 1];
      if i > 0 {
        assert t[i] == rest[i - 1];
      }
    }
  }

  predicate Sorted(s: seq<int>) {
    forall i, j :: 0 <= i < j < |s| ==> s[i] <= s[j]
  }

  /** The sorted order `statistics.median` works on. */
  function Sort(s: seq<int>): (t: seq<int>)
    ensures Sorted(t) && multiset(t) == multiset(s)
  {
    if |s| == 0 then []
    else
      assert s == [s[0]] + s[1..];
      Insert(s[0], Sort(s[1..]))
  }

  /** The middle element of a sorted list, or the mean of the two middle
      ones for an even count. */
  function Middle(t: seq<int>): real
    requires |t| > 0
  {
    var h := |t| / 2;
    if |t| % 2 == 1 then t[h] as real else (t[h - 1] + t[h]) as real / 2.0
  }

  /** `statistics.median`: the middle of the sorted list. */
  function Median(s: seq<int>): (med: real)
    requires |s| > 0
    ensures MinOf(s) as real <= med <= MaxOf(s) as real
  {
    var t := Sort(s);
    PermutationBetween(s, t);
    Middle(t)
  }

  /** A rearrangement of a non-empty list lies between its extremes. */
  lemma PermutationBetween(s: seq<int>, t: seq<int>)
    requires |s| > 0 && multiset(t) == multiset(s)
    ensures forall k :: 0 <= k < |t| ==> MinOf(s) <= t[k] <= MaxOf(s)
  {
    forall k | 0 <= k < |t|
      ensures MinOf(s) <= t[k] <= MaxOf(s)
    {
      assert t[k] in multiset(t);
      assert t[k] in s;
    }
  }

  /** In a sorted list the lower half lies at or below the middle and the
      upper half at or above it. */
  lemma MiddleSplits(t: seq<int>)
    requires |t| > 0 && Sorted(t)
    ensures forall k :: 0 <= k < (|t| + 1) / 2 ==> t[k] as real <= Middle(t)
    ensures forall k :: |t| / 2 <= k < |t| ==> Middle(t) <= t[k] as real
  {
    var n := |t|;
    var h := n / 2;
    if n % 2 == 1 {
      assert (n + 1) / 2 == h + 1;
    } else {
      assert (n + 1) / 2 == h;
      assert t[h - 1] <= t[h];
    }
  }

  /** Half the sorted list lies at or below the median, half at or above. */
  lemma MedianSplits(s: seq<int>)
    requires |s| > 0
    ensures var t := Sort(s);
            && (forall k :: 0 <= k < (|t| + 1) / 2 ==> t[k] as real <= Median(s))
            && (forall k :: |t| / 2 <= k < |t| ==> Median(s) <= t[k] as real)
  {
    MiddleSplits(Sort(s));
  }

  /** `mean` is `total` spread over `count` items. */
  predicate IsMean(mean: real, count: nat, total: real) {
    mean * count as real == total
  }

  /** The mean of the escaped agents' counters below `n` is their sum over
      their number. */
  lemma {:induction false} MeanEscapeTime(m: Metrics, n: nat)
    requires Valid(m) && n <= m.numberOfAgents
    ensures IsMean(Average(AsReals(EscapeTimes(m, n))), |EscapedIds(m, n)|, EscapedTickSum(m, n))
  {
    EscapeTimesSum(m, n);
    MeanOf(AsReals(EscapeTimes(m, n)), |EscapedIds(m, n)|, EscapedTickSum(m, n));
  }

  /** A list of `c` elements summing to `total` has mean times `c` equal
      to `total`. */
  lemma {:induction false} MeanOf(s: seq<real>, c: nat, total: real)
    requires |s| == c && Sum(s) == total
    ensures IsMean(Average(s), c, total)
  {
    AverageTimesCount(s);
  }

  /** The mean times the count is the sum, the empty list included. */
  lemma {:induction false} AverageTimesCount(s: seq<real>)
    ensures Average(s) * |s| as real == Sum(s)
  {
    if |s| == 0 {
      assert Sum(s) == 0.0;
    }
  }

  datatype EscapeStatistics = EscapeStatistics(minTime: int, maxTime: int, averageTime: real, medianTime: real)

  function AsReals(s: seq<int>): (r: seq<real>)
    ensures |r| == |s| && forall k :: 0 <= k < |s| ==> r[k] == s[k] as real
  {
    seq(|s|, k requires 0 <= k < |s| => s[k] as real)
  }

  /** `calculate_escape_statistics`: `None` exactly when no agent has
      escaped; otherwise the minimum, maximum, mean and median of the
      escaped agents' counters, with the mean and the median between the
      extremes. */
  function CalculateEscapeStatistics(m: Metrics): (r: Option<EscapeStatistics>)
    requires Valid(m)
    ensures r.None? <==> forall id :: 0 <= id < m.numberOfAgents ==> !m.agentEscaped[id]
    ensures r.Some? ==>
              var st := r.value;
              && st.minTime as real <= st.medianTime <= st.maxTime as real
              && st.minTime as real <= st.averageTime <= st.maxTime as real
              && (forall id :: 0 <= id < m.numberOfAgents && m.agentEscaped[id] ==>
                    st.minTime <= m.agentTicks[id] <= st.maxTime)
              && (exists id :: 0 <= id < m.numberOfAgents && m.agentEscaped[id] && m.agentTicks[id] == st.minTime)
              && (exists id :: 0 <= id < m.numberOfAgents && m.agentEscaped[id] && m.agentTicks[id] == st.maxTime)
    ensures r.Some? ==> IsMean(r.value.averageTime, |EscapedIds(m, m.numberOfAgents)|, EscapedTickSum(m, m.numberOfAgents))
  {
    var times := EscapeTimes(m, m.numberOfAgents);
    if |times| == 0 then None
    else
      var lo := MinOf(times);
      var hi := MaxOf(times);
      var avg := Average(AsReals(times));
      AverageBetween(AsReals(times), lo as real, hi as real);
      MeanEscapeTime(m, m.numberOfAgents);
      assert forall id :: 0 <= id < m.numberOfAgents && m.agentEscaped[id] ==> m.agentTicks[id] in times;
      Some(EscapeStatistics(lo, hi, avg, Median(times)))
  }
}

=== FILE: obstacle.dfy ===
/** Axis-aligned rectangles: obstacles, subgoal zones and the base zone. */
module Obstacles {
  import opened Geometry

  /** A rectangle in whole pixels. `Obstacle.__init__` stores its
      arguments unchanged; they are taken to be integers here. */
  datatype Rect = Rect(left: int, top: int, width: int, height: int)

  /** Python's `n // 2`, which rounds toward minus infinity. Dafny's `/` is
      Euclidean; for the positive divisor 2 the two agree. */
  function FloorHalf(n: int): (q: int)
    ensures 2 * q <= n < 2 * q + 2
  {
    n / 2
  }

  /** The obstacle's `center`, `(left + width // 2, top + height // 2)`. */
  function Center(r: Rect): (c: Vec2)
    ensures c.x == c.x.Floor as real && c.y == c.y.Floor as real
    ensures 2.0 * c.x <= (2 * r.left + r.width) as real < 2.0 * c.x + 2.0
    ensures 2.0 * c.y <= (2 * r.top + r.height) as real < 2.0 * c.y + 2.0
  {
    Vec2((r.left + FloorHalf(r.width)) as real, (r.top + FloorHalf(r.height)) as real)
  }

  /** The closed rectangle as a point set. */
  predicate Covers(r: Rect, p: Vec2) {
    r.left as real <= p.x <= (r.left + r.width) as real &&
    r.top as real <= p.y <= (r.top + r.height) as real
  }

  /** A rectangle of non-negative size covers its own centre. */
  lemma CenterCovered(r: Rect)
    requires 0 <= r.width && 0 <= r.height
    ensures Covers(r, Center(r))
  {
  }

  /** `away_from_obst`: the vector from the centre (not the nearest edge) to
      the agent, and its length. */
  function AwayFromObst(len: Vec2 -> real, r: Rect, agentX: real, agentY: real): (res: (Vec2, real))
    requires IsLength(len)
    ensures Add(Center(r), res.0) == Vec2(agentX, agentY)
    ensures res.1 == len(res.0) && 0.0 <= res.1
    ensures res.1 == 0.0 <==> Vec2(agentX, agentY) == Center(r)
  {
    var v := Vec2(agentX - Center(r).x, agentY - Center(r).y);
    (v, len(v))
  }
}

=== FILE: simulation.dfy ===
/** The per-tick bookkeeping of simulation.py: the per-agent position
    resolver, the cached distance table, and the escape split. */
module Simulation {
  import opened Geometry
  import opened Wrappers
  import opened Obstacles
  import opened Arena
  import Agents

  /** An entry of `EXITS`: its top-left corner and width (its height is
      only drawn). */
  datatype Exit = Exit(position: Vec2, width: real)

  /** What the resolver and the escape test are given besides the agents:
      the box, which `resolve_positions` takes as parameters, and the
      names constants.py does not define: `AGENT_RADIUS`, `EXITS`, the
      size that marks the big obstacle, and `AGENT_AVG_SPEED`, the
      displacement cap. The escape test reads the box from the constants
      `BOX_TOP` and `BOX_HEIGHT` instead. */
  datatype Config = Config(box: Box, radius: real, exits: seq<Exit>,
                           bigObstacleW: int, bigObstacleH: int, avgSpeed: real)

  /** Position correction                                                  */

  /** The agent is near `e`: beyond the inset on the top (bottom) wall
      while the exit lies on that wall, and within the exit's x span. */
  predicate NearExit(cfg: Config, e: Exit, p: Vec2) {
    var b := cfg.box;
    var r := cfg.radius;
    && ((p.y < b.top + r && e.position.y <= b.top + r) ||
        (p.y > b.top + b.height - r && e.position.y >= b.top + b.height - r))
    && e.position.x <= p.x <= e.position.x + e.width
  }

  /** The exit window: near any exit. */
  predicate InExitArea(cfg: Config, p: Vec2) {
    exists k :: 0 <= k < |cfg.exits| && NearExit(cfg, cfg.exits[k], p)
  }

  /** Only obstacles of exactly the big obstacle's size take part. */
  predicate IsBig(cfg: Config, o: Rect) {
    o.width == cfg.bigObstacleW && o.height == cfg.bigObstacleH
  }

  /** The obstacle inflated by the radius, a closed rectangle. */
  predicate InInflated(r: real, o: Rect, p: Vec2) {
    && o.left as real - r <= p.x <= (o.left + o.width) as real + r
    && o.top as real - r <= p.y <= (o.top + o.height) as real + r
  }

  /** One obstacle's push-out. Inside a big obstacle's inflated rectangle,
      a coordinate left (above) of the obstacle moves to `r` beyond its
      left (top) side, one right (below) of it to `r` beyond its right
      (bottom) side, and one within the obstacle's span stays; the axes
      are treated independently. */
  function PushOut(cfg: Config, o: Rect, p: Vec2): (q: Vec2)
    ensures !IsBig(cfg, o) || !InInflated(cfg.radius, o, p) ==> q == p
    ensures q.x == p.x || q.x == o.left as real - cfg.radius || q.x == (o.left + o.width) as real + cfg.radius
    ensures q.y == p.y || q.y == o.top as real - cfg.radius || q.y == (o.top + o.height) as real + cfg.radius
    ensures o.left as real <= p.x <= (o.left + o.width) as real ==> q.x == p.x
    ensures o.top as real <= p.y <= (o.top + o.height) as real ==> q.y == p.y
    ensures IsBig(cfg, o) && InInflated(cfg.radius, o, p) && p.x < o.left as real ==> q.x == o.left as real - cfg.radius
    ensures IsBig(cfg, o) && InInflated(cfg.radius, o, p) && 0 <= o.width && p.x > (o.left + o.width) as real ==>
              q.x == (o.left + o.width) as real + cfg.radius
    ensures IsBig(cfg, o) && InInflated(cfg.radius, o, p) && p.y < o.top as real ==> q.y == o.top as real - cfg.radius
    ensures IsBig(cfg, o) && InInflated(cfg.radius, o, p) && 0 <= o.height && p.y > (o.top + o.height) as real ==>
              q.y == (o.top + o.height) as real + cfg.radius
  {
    var r := cfg.radius;
    if IsBig(cfg, o) && InInflated(r, o, p) then
      var x := if p.x < o.left as real then o.left as real - r
               else if p.x > (o.left + o.width) as real then (o.left + o.width) as real + r
               else p.x;
      var y := if p.y < o.top as real then o.top as real - r
               else if p.y > (o.top + o.height) as real then (o.top + o.height) as real + r
               else p.y;
      Vec2(x, y)
    else p
  }

  /** On the boundary of the obstacle inflated by `r`: inside the inflated
      rectangle with one coordinate on one of its edges. */
  predicate OnInflatedEdge(r: real, o: Rect, p: Vec2) {
    && InInflated(r, o, p)
    && (|| p.x == o.left as real - r || p.x == (o.left + o.width) as real + r
        || p.y == o.top as real - r || p.y == (o.top + o.height) as real + r)
  }

  /** A push-out that moves the agent leaves it on the boundary of the
      inflated rectangle; an agent in a big obstacle's inflated band but
      outside the obstacle itself always ends there, while one inside the
      obstacle itself is not moved. */
  lemma PushOutReachesBoundary(cfg: Config, o: Rect, p: Vec2)
    requires 0.0 <= cfg.radius && 0 <= o.width && 0 <= o.height
    ensures var q := PushOut(cfg, o, p);
            && (q != p ==> OnInflatedEdge(cfg.radius, o, q))
            && (IsBig(cfg, o) && InInflated(cfg.radius, o, p) && !Covers(o, p) ==> OnInflatedEdge(cfg.radius, o, q))
            && (Covers(o, p) ==> q == p)
  {
  }

  /** The obstacles in list order, each seeing the previous one's result. */
  function PushOutAll(cfg: Config, obstacles: seq<Rect>, p: Vec2): (q: Vec2)
    ensures (forall k :: 0 <= k < |obstacles| ==> !IsBig(cfg, obstacles[k]) || !InInflated(cfg.radius, obstacles[k], p))
            ==> q == p
  {
    if |obstacles| == 0 then p
    else PushOutAll(cfg, obstacles[1..], PushOut(cfg, obstacles[0], p))
  }

  /** The displacement cap: a correction longer than `cap` is shortened to
      exactly `cap` along the same direction. */
  function CapDisplacement(len: Vec2 -> real, from: Vec2, to: Vec2, cap: real): (q: Vec2)
    requires IsLength(len) && 0.0 <= cap
    ensures len(Sub(q, from)) <= cap
    ensures len(Sub(to, from)) <= cap ==> q == to
    ensures len(Sub(to, from)) > cap ==>
              len(Sub(q, from)) == cap && (cap > 0.0 ==> SameDirection(Sub(q, from), Sub(to, from)))
  {
    var diff := Sub(to, from);
    var length := len(diff);
    if length > cap then
      var step := Scale(Scale(diff, 1.0 / length), cap);
      assert Sub(Add(step, from), from) == step;
      assert len(Scale(diff, 1.0 / length)) == 1.0;
      assert cap > 0.0 ==> Scale(diff, 1.0 / length * cap) == step;
      Add(step, from)
    else to
  }

  /** The resolver's target before the cap: the exempt stay, the others
      are clamped into the inset box and pushed out of big obstacles. */
  function Correct(cfg: Config, obstacles: seq<Rect>, p: Vec2): (q: Vec2)
    ensures InExitArea(cfg, p) ==> q == p
    ensures !InExitArea(cfg, p) ==> q == PushOutAll(cfg, obstacles, Clamp(cfg.box, cfg.radius, p))
  {
    if InExitArea(cfg, p) then p
    else PushOutAll(cfg, obstacles, Clamp(cfg.box, cfg.radius, p))
  }

  /** One agent's resolved position. */
  function ResolveOne(len: Vec2 -> real, cfg: Config, obstacles: seq<Rect>, p: Vec2): (q: Vec2)
    requires IsLength(len) && 0.0 <= cfg.avgSpeed
    ensures len(Sub(q, p)) <= cfg.avgSpeed
    ensures len(Sub(Correct(cfg, obstacles, p), p)) <= cfg.avgSpeed ==> q == Correct(cfg, obstacles, p)
    ensures len(Sub(Correct(cfg, obstacles, p), p)) > cfg.avgSpeed ==>
              && len(Sub(q, p)) == cfg.avgSpeed
              && (cfg.avgSpeed > 0.0 ==> SameDirection(Sub(q, p), Sub(Correct(cfg, obstacles, p), p)))
  {
    CapDisplacement(len, p, Correct(cfg, obstacles, p), cfg.avgSpeed)
  }

  /** An agent in an exit window is not moved. */
  lemma ExemptUnchanged(len: Vec2 -> real, cfg: Config, obstacles: seq<Rect>, p: Vec2)
    requires IsLength(len) && 0.0 <= cfg.avgSpeed
    requires InExitArea(cfg, p)
    ensures ResolveOne(len, cfg, obstacles, p) == p
  {
    assert Sub(p, p) == Zero;
  }

  /** An agent inside the inset box and outside every inflated big
      obstacle is not moved. */
  lemma SettledUnchanged(len: Vec2 -> real, cfg: Config, obstacles: seq<Rect>, p: Vec2)
    requires IsLength(len) && 0.0 <= cfg.avgSpeed
    requires cfg.box.left + cfg.radius <= p.x <= cfg.box.left + cfg.box.width - cfg.radius
    requires cfg.box.top + cfg.radius <= p.y <= cfg.box.top + cfg.box.height - cfg.radius
    requires forall k :: 0 <= k < |obstacles| ==> !IsBig(cfg, obstacles[k]) || !InInflated(cfg.radius, obstacles[k], p)
    ensures ResolveOne(len, cfg, obstacles, p) == p
  {
    assert Sub(p, p) == Zero;
  }

  /** `Simulation.resolve_positions`: every agent is resolved on its own;
      there is no pairwise pass. */
  method ResolvePositions(len: Vec2 -> real, cfg: Config, obstacles: seq<Rect>, positions: seq<Vec2>)
    returns (resolved: seq<Vec2>)
    requires IsLength(len) && 0.0 <= cfg.avgSpeed
    ensures |resolved| == |positions|
    ensures forall k :: 0 <= k < |positions| ==> resolved[k] == ResolveOne(len, cfg, obstacles, positions[k])
    ensures forall k :: 0 <= k < |positions| ==> len(Sub(resolved[k], positions[k])) <= cfg.avgSpeed
  {
    resolved := [];
    var i := 0;
    while i < |positions|
      invariant 0 <= i <= |positions| && |resolved| == i
      invariant forall k :: 0 <= k < i ==> resolved[k] == ResolveOne(len, cfg, obstacles, positions[k])
    {
      resolved := resolved + [ResolveOne(len, cfg, obstacles, positions[i])];
      i := i + 1;
    }
  }

  /** Each resolved position depends on that agent's own position only. */
  lemma ResolveIsLocal(len: Vec2 -> real, cfg: Config, obstacles: seq<Rect>,
                       ps: seq<Vec2>, qs: seq<Vec2>, k: nat, rs: seq<Vec2>, ss: seq<Vec2>)
    requires IsLength(len) && 0.0 <= cfg.avgSpeed
    requires k < |ps| && k < |qs| && ps[k] == qs[k]
    requires |rs| == |ps| && forall m :: 0 <= m < |ps| ==> rs[m] == ResolveOne(len, cfg, obstacles, ps[m])
    requires |ss| == |qs| && forall m :: 0 <= m < |qs| ==> ss[m] == ResolveOne(len, cfg, obstacles, qs[m])
    ensures rs[k] == ss[k]
  {
  }

  /** The distance cache                                                   */

  /** The table's element type is integral: a stored distance is the
      Euclidean distance truncated toward zero. */
  function Truncate(d: real): (t: int)
    requires 0.0 <= d
    ensures 0 <= t && t as real <= d < t as real + 1.0
  {
    d.Floor
  }

  /** `record_distances` skips a pair `a < b` farther apart than agent a's
      perception on either axis (agent b's perception is not consulted). */
  predicate Pruned(agents: seq<Agents.Agent>, a: nat, b: nat)
    requires a < |agents| && b < |agents|
  {
    var p := agents[a].position;
    var q := agents[b].position;
    Abs(p.x - q.x) > agents[a].perception || Abs(p.y - q.y) > agents[a].perception
  }

  /** The entry agent `i` holds for agent `j`: -1 for itself and for a
      pruned pair, otherwise the truncated distance. */
  function CachedDistance(len: Vec2 -> real, agents: seq<Agents.Agent>, i: nat, j: nat): (d: int)
    requires IsLength(len) && i < |agents| && j < |agents|
    ensures d >= -1
    ensures d == -1 <==> i == j || Pruned(agents, Min2(i, j), Max2(i, j))
  {
    if i == j then -1
    else
      var a := Min2(i, j);
      var b := Max2(i, j);
      if Pruned(agents, a, b) then -1
      else Truncate(len(Sub(agents[a].position, agents[b].position)))
  }

  /** The entry is the same from either side of the pair. */
  lemma CachedDistanceSymmetric(len: Vec2 -> real, agents: seq<Agents.Agent>, i: nat, j: nat)
    requires IsLength(len) && i < |agents| && j < |agents|
    ensures CachedDistance(len, agents, i, j) == CachedDistance(len, agents, j, i)
  {
  }

  function Min2(a: nat, b: nat): nat { if a <= b then a else b }
  function Max2(a: nat, b: nat): nat { if a <= b then b else a }

  predicate DistinctIds(agents: seq<Agents.Agent>) {
    forall i, j :: 0 <= i < j < |agents| ==> agents[i].id != agents[j].id
  }

  predicate IdsBelow(agents: seq<Agents.Agent>, agentCount: nat) {
    forall k :: 0 <= k < |agents| ==> agents[k].id < agentCount
  }

  /** No agent in the list carries `id`. */
  predicate Absent(agents: seq<Agents.Agent>, id: nat) {
    forall k :: 0 <= k < |agents| ==> agents[k].id != id
  }

  /** The pair `a < b` has been visited once the scan has reached row `i`,
      column `j`. */
  predicate Visited(a: nat, b: nat, i: nat, j: nat) {
    a < i || (a == i && b < j)
  }

  /** The table rows after visiting the pairs before `(i, j)`. */
  ghost predicate TableUpTo(len: Vec2 -> real, agents: seq<Agents.Agent>, rows: seq<seq<int>>,
                            agentCount: nat, i: nat, j: nat)
    requires IsLength(len) && |rows| == |agents| && IdsBelow(agents, agentCount)
    requires forall x :: 0 <= x < |rows| ==> |rows[x]| == agentCount
  {
    && (forall x, id :: 0 <= x < |rows| && 0 <= id < agentCount && Absent(agents, id) ==> rows[x][id] == -1)
    && (DistinctIds(agents) ==>
          forall x, y :: 0 <= x < |rows| && 0 <= y < |rows| ==>
            rows[x][agents[y].id] ==
              (if x != y && Visited(Min2(x, y), Max2(x, y), i, j) then CachedDistance(len, agents, x, y) else -1))
  }

  /** `record_distances`: every active agent's table is reset to -1 over
      `AGENT_COUNT` ids, then each unpruned pair `i < j` stores its
      truncated distance in both agents' tables. */
  method RecordDistances(len: Vec2 -> real, agents: seq<Agents.Agent>, agentCount: nat)
    returns (recorded: seq<Agents.Agent>)
    requires IsLength(len) && IdsBelow(agents, agentCount)
    ensures |recorded| == |agents|
    ensures forall k :: 0 <= k < |agents| ==>
              recorded[k] == agents[k].(distances := recorded[k].distances) && |recorded[k].distances| == agentCount
    ensures forall k, id :: 0 <= k < |agents| && 0 <= id < agentCount && Absent(agents, id) ==>
              recorded[k].distances[id] == -1
    ensures DistinctIds(agents) ==>
              forall x, y :: 0 <= x < |agents| && 0 <= y < |agents| ==>
                recorded[x].distances[agents[y].id] == CachedDistance(len, agents, x, y)
    ensures DistinctIds(agents) ==>
              forall x, y :: 0 <= x < |agents| && 0 <= y < |agents| ==>
                recorded[x].distances[agents[y].id] == recorded[y].distances[agents[x].id]
  {
    var n := |agents|;
    var rows: seq<seq<int>> := seq(n, _ => seq(agentCount, _ => -1));
    var i := 0;
    while i < n
      invariant 0 <= i <= n && |rows| == n
      invariant forall x :: 0 <= x < n ==> |rows[x]| == agentCount
      invariant TableUpTo(len, agents, rows, agentCount, i, i + 1)
    {
      var j := i + 1;
      while j < n
        invariant i + 1 <= j <= n && |rows| == n
        invariant forall x :: 0 <= x < n ==> |rows[x]| == agentCount
        invariant TableUpTo(len, agents, rows, agentCount, i, j)
      {
        rows := StorePair(len, agents, rows, agentCount, i, j);
        j := j + 1;
      }
      NextRow(len, agents, rows, agentCount, i);
      i := i + 1;
    }
    TableComplete(len, agents, rows, agentCount);
    recorded := seq(n, k requires 0 <= k < n => agents[k].(distances := rows[k]));
  }

  /** Once every pair is visited the table holds the cached distance of
      every pair, the same from either side. */
  lemma TableComplete(len: Vec2 -> real, agents: seq<Agents.Agent>, rows: seq<seq<int>>, agentCount: nat)
    requires IsLength(len) && |rows| == |agents| && IdsBelow(agents, agentCount)
    requires forall x :: 0 <= x < |rows| ==> |rows[x]| == agentCount
    requires TableUpTo(len, agents, rows, agentCount, |agents|, |agents| + 1)
    ensures DistinctIds(agents) ==>
              forall x, y :: 0 <= x < |agents| && 0 <= y < |agents| ==>
                rows[x][agents[y].id] == CachedDistance(len, agents, x, y) == rows[y][agents[x].id]
  {
    var n := |agents|;
    if DistinctIds(agents) {
      forall x, y | 0 <= x < n && 0 <= y < n
        ensures rows[x][agents[y].id] == CachedDistance(len, agents, x, y) == rows[y][agents[x].id]
      {
        if x != y {
          assert Visited(Min2(x, y), Max2(x, y), n, n + 1);
        }
        CachedDistanceSymmetric(len, agents, x, y);
      }
    }
  }

  /** One step of the inner loop: visit pair `(i, j)`. */
  function StorePair(len: Vec2 -> real, agents: seq<Agents.Agent>, rows: seq<seq<int>>,
                     agentCount: nat, i: nat, j: nat): (rows': seq<seq<int>>)
    requires IsLength(len) && |rows| == |agents| && IdsBelow(agents, agentCount)
    requires forall x :: 0 <= x < |rows| ==> |rows[x]| == agentCount
    requires i < j < |agents|
    requires TableUpTo(len, agents, rows, agentCount, i, j)
    ensures |rows'| == |rows| && forall x :: 0 <= x < |rows'| ==> |rows'[x]| == agentCount
    ensures TableUpTo(len, agents, rows', agentCount, i, j + 1)
  {
    if Pruned(agents, i, j) then
      SkipPair(len, agents, rows, agentCount, i, j);
      rows
    else
      var d := Truncate(len(Sub(agents[i].position, agents[j].position)));
      var r1 := rows[i := rows[i][agents[j].id := d]];
      var r2 := r1[j := r1[j][agents[i].id := d]];
      FillPair(len, agents, rows, agentCount, i, j, r2);
      r2
  }

  /** A pruned pair leaves both entries at -1, as they were. */
  lemma SkipPair(len: Vec2 -> real, agents: seq<Agents.Agent>, rows: seq<seq<int>>,
                 agentCount: nat, i: nat, j: nat)
    requires IsLength(len) && |rows| == |agents| && IdsBelow(agents, agentCount)
    requires forall x :: 0 <= x < |rows| ==> |rows[x]| == agentCount
    requires i < j < |agents| && Pruned(agents, i, j)
    requires TableUpTo(len, agents, rows, agentCount, i, j)
    ensures TableUpTo(len, agents, rows, agentCount, i, j + 1)
  {
    if DistinctIds(agents) {
      forall x, y | 0 <= x < |rows| && 0 <= y < |rows|
        ensures rows[x][agents[y].id] ==
                  (if x != y && Visited(Min2(x, y), Max2(x, y), i, j + 1) then CachedDistance(len, agents, x, y) else -1)
      {
        if x != y && Min2(x, y) == i && Max2(x, y) == j {
          assert CachedDistance(len, agents, x, y) == -1;
        }
      }
    }
  }

  /** An unpruned pair stores its truncated distance in both entries and
      touches no other entry. */
  lemma FillPair(len: Vec2 -> real, agents: seq<Agents.Agent>, rows: seq<seq<int>>,
                 agentCount: nat, i: nat, j: nat, rows': seq<seq<int>>)
    requires IsLength(len) && |rows| == |agents| && IdsBelow(agents, agentCount)
    requires forall x :: 0 <= x < |rows| ==> |rows[x]| == agentCount
    requires i < j < |agents| && !Pruned(agents, i, j)
    requires TableUpTo(len, agents, rows, agentCount, i, j)
    requires var d := Truncate(len(Sub(agents[i].position, agents[j].position)));
             var r1 := rows[i := rows[i][agents[j].id := d]];
             rows' == r1[j := r1[j][agents[i].id := d]]
    ensures |rows'| == |rows| && forall x :: 0 <= x < |rows'| ==> |rows'[x]| == agentCount
    ensures TableUpTo(len, agents, rows', agentCount, i, j + 1)
  {
    var d := Truncate(len(Sub(agents[i].position, agents[j].position)));
    assert rows'[i][agents[j].id] == d && rows'[j][agents[i].id] == d;
    assert forall x, id ::
      (0 <= x < |rows| && 0 <= id < agentCount && (x != i || id != agents[j].id) && (x != j || id != agents[i].id))
        ==> rows'[x][id] == rows[x][id];
    if DistinctIds(agents) {
      forall x, y | 0 <= x < |rows| && 0 <= y < |rows|
        ensures rows'[x][agents[y].id] ==
                  (if x != y && Visited(Min2(x, y), Max2(x, y), i, j + 1) then CachedDistance(len, agents, x, y) else -1)
      {
        if x == i && y == j {
          assert CachedDistance(len, agents, x, y) == d;
        } else if x == j && y == i {
          assert CachedDistance(len, agents, x, y) == d;
        } else {
          assert agents[y].id != agents[j].id || x != i;
          assert agents[y].id != agents[i].id || x != j;
        }
      }
    }
  }

  /** Finishing a row: visiting up to column `n` is visiting up to the next
      row's diagonal. */
  lemma NextRow(len: Vec2 -> real, agents: seq<Agents.Agent>, rows: seq<seq<int>>, agentCount: nat, i: nat)
    requires IsLength(len) && |rows| == |agents| && IdsBelow(agents, agentCount)
    requires forall x :: 0 <= x < |rows| ==> |rows[x]| == agentCount
    requires i < |agents|
    requires TableUpTo(len, agents, rows, agentCount, i, |agents|)
    ensures TableUpTo(len, agents, rows, agentCount, i + 1, i + 2)
  {
  }

  /** The escape split                                                     */

  /** `main_loop`'s escape-easing margin. */
  const Epsilon: real := 2.0

  /** The agent has escaped through some exit: within `epsilon` of the
      bottom (top) wall and within the exit's x span. */
  predicate Escaped(cfg: Config, p: Vec2) {
    exists k :: 0 <= k < |cfg.exits| &&
      var e := cfg.exits[k];
      ((p.y >= BoxTop + BoxHeight - Epsilon && e.position.x <= p.x <= e.position.x + e.width) ||
       (p.y <= BoxTop + Epsilon && e.position.x <= p.x <= e.position.x + e.width))
  }

  /** The agents whose escape test gives `escaped`, in list order:
      `dropped_out_agents` for true, the kept `agents` for false. */
  function Select(cfg: Config, agents: seq<Agents.Agent>, escaped: bool): (s: seq<Agents.Agent>)
    ensures forall k :: 0 <= k < |s| ==> Escaped(cfg, s[k].position) == escaped
    ensures |s| <= |agents|
  {
    if |agents| == 0 then []
    else
      var rest := Select(cfg, agents[1..], escaped);
      if Escaped(cfg, agents[0].position) == escaped then [agents[0]] + rest else rest
  }

  /** Every agent lands in exactly one of the two lists. */
  lemma {:induction false} SplitIsPartition(cfg: Config, agents: seq<Agents.Agent>)
    ensures multiset(Select(cfg, agents, true)) + multiset(Select(cfg, agents, false)) == multiset(agents)
  {
    if |agents| > 0 {
      var tail := agents[1..];
      SplitIsPartition(cfg, tail);
      assert agents == [agents[0]] + tail;
      var m := multiset(Select(cfg, tail, true)) + multiset(Select(cfg, tail, false));
      assert multiset(agents) == multiset{agents[0]} + m;
      if Escaped(cfg, agents[0].position) {
        assert Select(cfg, agents, true) == [agents[0]] + Select(cfg, tail, true);
        assert Select(cfg, agents, false) == Select(cfg, tail, false);
      } else {
        assert Select(cfg, agents, true) == Select(cfg, tail, true);
        assert Select(cfg, agents, false) == [agents[0]] + Select(cfg, tail, false);
      }
    }
  }

  /** The split keeps list order: selecting from a concatenation
      concatenates the selections. */
  lemma {:induction false} SelectAppend(cfg: Config, a: seq<Agents.Agent>, b: seq<Agents.Agent>, escaped: bool)
    ensures Select(cfg, a + b, escaped) == Select(cfg, a, escaped) + Select(cfg, b, escaped)
  {
    if |a| > 0 {
      assert (a + b)[1..] == a[1..] + b;
      SelectAppend(cfg, a[1..], b, escaped);
    } else {
      assert a + b == b;
    }
  }

  /** An agent is kept exactly when it has not escaped, and dropped
      exactly when it has. */
  lemma {:induction false} SelectMembership(cfg: Config, agents: seq<Agents.Agent>, a: Agents.Agent, escaped: bool)
    ensures a in Select(cfg, agents, escaped) <==> a in agents && Escaped(cfg, a.position) == escaped
  {
    if |agents| > 0 {
      SelectMembership(cfg, agents[1..], a, escaped);
      assert a in agents <==> a == agents[0] || a in agents[1..];
    }
  }
}

=== FILE: subgoals.dfy ===
/** Subgoal navigation: `find_subgoal` and `am_i_stuck`.

    The zones of every stage come from a table keyed by the subgoal
    indicator; the base zone is the region that tells an agent it has been
    pushed back into the benches. Both tables, the agent radius and the
    base zone's point test (`Obstacle.is_in`, which obstacle.py does not
    define) are parameters. */
module Subgoals {
  import opened Geometry
  import opened Wrappers
  import opened Obstacles

  /** A zone counts as entered only this many pixels deep. */
  const ObstaclePadding: real := 3.0

  /** `SUBGOAL_ZONES`, `BASE_ZONE` and `AGENT_RADIUS`. */
  datatype Navigation = Navigation(stages: map<int, seq<Rect>>, baseZone: Rect, agentRadius: real)

  /** What `find_subgoal` returns: a target (Python's `None` when the stage
      has no zone) and whether the agent has reached the stage. */
  datatype Subgoal = Subgoal(target: Option<Vec2>, reached: bool)

  /** The `KeyError` of `SUBGOAL_ZONES[subgoal_indicator]`. */
  datatype NavError = MissingStage(indicator: int)

  /** The agent's body plus padding lies within the zone horizontally:
      strict on the left edge, non-strict on the right. */
  predicate XIn(z: Rect, loc: Vec2, radius: real) {
    && z.left as real < loc.x - radius - ObstaclePadding
    && (z.left + z.width) as real >= loc.x + radius + ObstaclePadding
  }

  /** The same test on the vertical axis. */
  predicate YIn(z: Rect, loc: Vec2, radius: real) {
    && z.top as real < loc.y - radius - ObstaclePadding
    && (z.top + z.height) as real >= loc.y + radius + ObstaclePadding
  }

  predicate FullyInside(z: Rect, loc: Vec2, radius: real) {
    XIn(z, loc, radius) && YIn(z, loc, radius)
  }

  /** The waypoint toward a zone the agent is not inside: inside the x
      span, keep x and take the centre's y; inside only the y span, keep y
      and take the centre's x; else head for the centre. Whatever the
      case, it is a point of the zone. */
  function Waypoint(z: Rect, loc: Vec2, radius: real): (w: Vec2)
    ensures 0 <= z.width && 0 <= z.height && 0.0 <= radius ==> Covers(z, w)
    ensures XIn(z, loc, radius) ==> w == Vec2(loc.x, Center(z).y)
    ensures !XIn(z, loc, radius) && YIn(z, loc, radius) ==> w == Vec2(Center(z).x, loc.y)
    ensures !XIn(z, loc, radius) && !YIn(z, loc, radius) ==> w == Center(z)
  {
    var c := Center(z);
    if XIn(z, loc, radius) then Vec2(loc.x, c.y)
    else if YIn(z, loc, radius) then Vec2(c.x, loc.y)
    else c
  }

  /** `am_i_stuck`: never at stage 0; otherwise whether one of the two
      diagonal body corners lies in the base zone. */
  function AmIStuck(isIn: (Rect, Vec2) -> bool, nav: Navigation, loc: Vec2, zoneId: int): (stuck: bool)
    ensures zoneId == 0 ==> !stuck
    ensures zoneId != 0 ==>
              (stuck <==> (|| isIn(nav.baseZone, Vec2(loc.x + nav.agentRadius, loc.y + nav.agentRadius))
                           || isIn(nav.baseZone, Vec2(loc.x - nav.agentRadius, loc.y - nav.agentRadius))))
  {
    if zoneId == 0 then false
    else
      isIn(nav.baseZone, Vec2(loc.x + nav.agentRadius, loc.y + nav.agentRadius)) ||
      isIn(nav.baseZone, Vec2(loc.x - nav.agentRadius, loc.y - nav.agentRadius))
  }

  /** Distance from the agent to a zone's centre, the selection key. */
  function ZoneDistance(len: Vec2 -> real, z: Rect, loc: Vec2): real {
    len(Sub(Center(z), loc))
  }

  /** The target a zone proposes: the previous stage's target when the
      agent is stuck (`previous` holds it), its waypoint otherwise. */
  function ZoneTarget(z: Rect, loc: Vec2, radius: real, previous: Option<Option<Vec2>>): Option<Vec2> {
    match previous
    case Some(t) => t
    case None => Some(Waypoint(z, loc, radius))
  }

  /** The loop's state: `min_distance` (infinite at first) and `target`. */
  datatype Nearest = Unbounded | Nearest(distance: real, target: Option<Vec2>)

  /** The loop of `find_subgoal` from zone `i` on. */
  function Scan(len: Vec2 -> real, radius: real, zs: seq<Rect>, loc: Vec2,
                previous: Option<Option<Vec2>>, i: nat, best: Nearest): (r: Subgoal)
    requires i <= |zs|
    ensures r.reached ==> r.target.Some?
    decreases |zs| - i
  {
    if i == |zs| then
      Subgoal(if best.Unbounded? then None else best.target, false)
    else if FullyInside(zs[i], loc, radius) then
      Subgoal(Some(Center(zs[i])), true)
    else
      var d := ZoneDistance(len, zs[i], loc);
      var best' := if best.Unbounded? || d < best.distance
                   then Nearest(d, ZoneTarget(zs[i], loc, radius, previous))
                   else best;
      Scan(len, radius, zs, loc, previous, i + 1, best')
  }

  /** The stage keys up to `indicator`: the recursion's termination measure. */
  function StagesUpTo(nav: Navigation, indicator: int): set<int> {
    set k | k in nav.stages && k <= indicator
  }

  lemma StagesShrink(nav: Navigation, indicator: int)
    requires indicator in nav.stages
    ensures |StagesUpTo(nav, indicator - 1)| < |StagesUpTo(nav, indicator)|
  {
    var a, b := StagesUpTo(nav, indicator - 1), StagesUpTo(nav, indicator);
    assert b == a + (b - a);
    assert indicator in b - a;
  }

  /** `find_subgoal`. The loop calls `find_subgoal(indicator - 1)` at every
      zone it passes while the agent is stuck; every call returns the same,
      so it is made once, at the first zone, where the loop makes it. A
      failing lookup in that call fails the whole call, as the `KeyError`
      propagates. */
  function FindSubgoal(len: Vec2 -> real, isIn: (Rect, Vec2) -> bool, nav: Navigation,
                       indicator: int, loc: Vec2): (r: Result<Subgoal, NavError>)
    ensures indicator !in nav.stages ==> r == Failure(MissingStage(indicator))
    ensures r.Success? && r.value.reached ==> r.value.target.Some?
    decreases |StagesUpTo(nav, indicator)|
  {
    if indicator !in nav.stages then Failure(MissingStage(indicator))
    else
      var zs := nav.stages[indicator];
      var radius := nav.agentRadius;
      if |zs| > 0 && !FullyInside(zs[0], loc, radius) && AmIStuck(isIn, nav, loc, indicator) then
        StagesShrink(nav, indicator);
        match FindSubgoal(len, isIn, nav, indicator - 1, loc)
        case Failure(e) => Failure(e)
        case Success(back) => Success(Scan(len, radius, zs, loc, Some(back.target), 0, Unbounded))
      else
        Success(Scan(len, radius, zs, loc, None, 0, Unbounded))
  }

  // ----- reference definitions -----

  /** Index of the first zone the agent is fully inside, or `|zs|`. */
  function FirstInside(zs: seq<Rect>, loc: Vec2, radius: real): (k: nat)
    ensures k <= |zs|
    ensures forall j :: 0 <= j < k ==> !FullyInside(zs[j], loc, radius)
    ensures k < |zs| ==> FullyInside(zs[k], loc, radius)
  {
    if |zs| == 0 then 0
    else if FullyInside(zs[0], loc, radius) then 0
    else 1 + FirstInside(zs[1..], loc, radius)
  }

  /** Index of the zone among the first `n` whose centre is nearest, ties
      going to the earliest. */
  function NearestAmong(len: Vec2 -> real, zs: seq<Rect>, loc: Vec2, n: nat): (k: nat)
    requires 0 < n <= |zs|
    ensures k < n
    ensures forall j :: 0 <= j < n ==> ZoneDistance(len, zs[k], loc) <= ZoneDistance(len, zs[j], loc)
    ensures forall j :: 0 <= j < k ==> ZoneDistance(len, zs[k], loc) < ZoneDistance(len, zs[j], loc)
  {
    if n == 1 then 0
    else
      var k := NearestAmong(len, zs, loc, n - 1);
      if ZoneDistance(len, zs[n - 1], loc) < ZoneDistance(len, zs[k], loc) then n - 1 else k
  }

  /** Only one index is nearest with ties to the earliest. */
  lemma NearestUnique(len: Vec2 -> real, zs: seq<Rect>, loc: Vec2, n: nat, k: nat)
    requires 0 < n <= |zs| && k < n
    requires forall j :: 0 <= j < n ==> ZoneDistance(len, zs[k], loc) <= ZoneDistance(len, zs[j], loc)
    requires forall j :: 0 <= j < k ==> ZoneDistance(len, zs[k], loc) < ZoneDistance(len, zs[j], loc)
    ensures k == NearestAmong(len, zs, loc, n)
  {
    var m := NearestAmong(len, zs, loc, n);
    assert ZoneDistance(len, zs[k], loc) <= ZoneDistance(len, zs[m], loc);
    assert ZoneDistance(len, zs[m], loc) <= ZoneDistance(len, zs[k], loc);
  }

  /** What one stage yields: the first zone containing the agent wins;
      otherwise the target proposed by the nearest zone, not reached. */
  function StageSpec(len: Vec2 -> real, radius: real, zs: seq<Rect>, loc: Vec2,
                     previous: Option<Option<Vec2>>): Subgoal
  {
    var f := FirstInside(zs, loc, radius);
    if f < |zs| then Subgoal(Some(Center(zs[f])), true)
    else if |zs| == 0 then Subgoal(None, false)
    else Subgoal(ZoneTarget(zs[NearestAmong(len, zs, loc, |zs|)], loc, radius, previous), false)
  }

  /** The best-so-far state after the first `i` zones. */
  function BestAfter(len: Vec2 -> real, radius: real, zs: seq<Rect>, loc: Vec2,
                     previous: Option<Option<Vec2>>, i: nat): Nearest
    requires i <= |zs|
  {
    if i == 0 then Unbounded
    else
      var k := NearestAmong(len, zs, loc, i);
      Nearest(ZoneDistance(len, zs[k], loc), ZoneTarget(zs[k], loc, radius, previous))
  }

  lemma BestStep(len: Vec2 -> real, radius: real, zs: seq<Rect>, loc: Vec2,
                 previous: Option<Option<Vec2>>, i: nat)
    requires i < |zs|
    ensures var best := BestAfter(len, radius, zs, loc, previous, i);
            var d := ZoneDistance(len, zs[i], loc);
            BestAfter(len, radius, zs, loc, previous, i + 1) ==
              if best.Unbounded? || d < best.distance
              then Nearest(d, ZoneTarget(zs[i], loc, radius, previous))
              else best
  {
  }

  lemma {:induction false} ScanFrom(len: Vec2 -> real, radius: real, zs: seq<Rect>, loc: Vec2,
                                    previous: Option<Option<Vec2>>, i: nat)
    requires i <= FirstInside(zs, loc, radius)
    ensures Scan(len, radius, zs, loc, previous, i, BestAfter(len, radius, zs, loc, previous, i))
            == StageSpec(len, radius, zs, loc, previous)
    decreases |zs| - i
  {
    if i == |zs| {
      ScanAtEnd(len, radius, zs, loc, previous);
    } else if i == FirstInside(zs, loc, radius) {
      ScanAtHit(len, radius, zs, loc, previous, i);
    } else {
      ScanStep(len, radius, zs, loc, previous, i);
      ScanFrom(len, radius, zs, loc, previous, i + 1);
    }
  }

  /** The scan's last step meets the specification when no zone contains
      the agent. */
  lemma ScanAtEnd(len: Vec2 -> real, radius: real, zs: seq<Rect>, loc: Vec2,
                  previous: Option<Option<Vec2>>)
    requires FirstInside(zs, loc, radius) == |zs|
    ensures Scan(len, radius, zs, loc, previous, |zs|, BestAfter(len, radius, zs, loc, previous, |zs|))
            == StageSpec(len, radius, zs, loc, previous)
  {
  }

  /** The scan stops at the first zone containing the agent. */
  lemma ScanAtHit(len: Vec2 -> real, radius: real, zs: seq<Rect>, loc: Vec2,
                  previous: Option<Option<Vec2>>, i: nat)
    requires i < |zs| && FullyInside(zs[i], loc, radius)
    requires forall j :: 0 <= j < i ==> !FullyInside(zs[j], loc, radius)
    ensures Scan(len, radius, zs, loc, previous, i, BestAfter(len, radius, zs, loc, previous, i))
            == StageSpec(len, radius, zs, loc, previous)
  {
    FirstInsideIs(zs, loc, radius, i);
  }

  /** The first containing zone is the one with none containing the agent
      before it. */
  lemma FirstInsideIs(zs: seq<Rect>, loc: Vec2, radius: real, i: nat)
    requires i < |zs| && FullyInside(zs[i], loc, radius)
    requires forall j :: 0 <= j < i ==> !FullyInside(zs[j], loc, radius)
    ensures FirstInside(zs, loc, radius) == i
  {
  }

  /** A zone that does not contain the agent advances the best-so-far
      state. */
  lemma ScanStep(len: Vec2 -> real, radius: real, zs: seq<Rect>, loc: Vec2,
                 previous: Option<Option<Vec2>>, i: nat)
    requires i < |zs| && !FullyInside(zs[i], loc, radius)
    ensures Scan(len, radius, zs, loc, previous, i, BestAfter(len, radius, zs, loc, previous, i))
            == Scan(len, radius, zs, loc, previous, i + 1, BestAfter(len, radius, zs, loc, previous, i + 1))
  {
    BestStep(len, radius, zs, loc, previous, i);
  }

  /** The loop computes the stage specification. */
  lemma ScanMeetsSpec(len: Vec2 -> real, radius: real, zs: seq<Rect>, loc: Vec2,
                      previous: Option<Option<Vec2>>)
    ensures Scan(len, radius, zs, loc, previous, 0, Unbounded) == StageSpec(len, radius, zs, loc, previous)
  {
    ScanFrom(len, radius, zs, loc, previous, 0);
  }

  // ----- properties of find_subgoal -----

  /** The first zone in list order that fully contains the agent is
      returned as reached, even when another zone is nearer; when it is
      the very first zone no fallback lookup happens, so the call cannot
      fail. */
  lemma FirstContainingZoneWins(len: Vec2 -> real, isIn: (Rect, Vec2) -> bool, nav: Navigation,
                                indicator: int, loc: Vec2)
    requires indicator in nav.stages
    requires FirstInside(nav.stages[indicator], loc, nav.agentRadius) < |nav.stages[indicator]|
    ensures var zs := nav.stages[indicator];
            var f := FirstInside(zs, loc, nav.agentRadius);
            var r := FindSubgoal(len, isIn, nav, indicator, loc);
            && (f == 0 ==> r.Success?)
            && (r.Success? ==> r.value == Subgoal(Some(Center(zs[f])), true))
  {
    var zs := nav.stages[indicator];
    ScanMeetsSpec(len, nav.agentRadius, zs, loc, None);
    if |zs| > 0 && !FullyInside(zs[0], loc, nav.agentRadius) && AmIStuck(isIn, nav, loc, indicator) {
      match FindSubgoal(len, isIn, nav, indicator - 1, loc)
      case Failure(e) =>
      case Success(back) => ScanMeetsSpec(len, nav.agentRadius, zs, loc, Some(back.target));
    }
  }

  /** No zone of the stage contains the agent. */
  predicate InNoZone(zs: seq<Rect>, loc: Vec2, radius: real) {
    forall j :: 0 <= j < |zs| ==> !FullyInside(zs[j], loc, radius)
  }

  /** An agent that is in no zone and not stuck gets the waypoint of the
      zone with the strictly nearest centre (ties to the earliest), not
      reached; the target is `None` exactly when the stage has no zone. */
  lemma WaypointOfNearestZone(len: Vec2 -> real, isIn: (Rect, Vec2) -> bool, nav: Navigation,
                              indicator: int, loc: Vec2)
    requires indicator in nav.stages
    requires InNoZone(nav.stages[indicator], loc, nav.agentRadius)
    requires !AmIStuck(isIn, nav, loc, indicator)
    ensures var zs := nav.stages[indicator];
            FindSubgoal(len, isIn, nav, indicator, loc) ==
              Success(Subgoal(if |zs| == 0 then None
                              else Some(Waypoint(zs[NearestAmong(len, zs, loc, |zs|)], loc, nav.agentRadius)),
                              false))
  {
    ScanMeetsSpec(len, nav.agentRadius, nav.stages[indicator], loc, None);
  }

  /** A stuck agent in no zone takes the previous stage's target, its
      reached flag discarded; a failure there is the call's failure. */
  lemma StuckFallsBack(len: Vec2 -> real, isIn: (Rect, Vec2) -> bool, nav: Navigation,
                       indicator: int, loc: Vec2)
    requires indicator in nav.stages && |nav.stages[indicator]| > 0
    requires InNoZone(nav.stages[indicator], loc, nav.agentRadius)
    requires AmIStuck(isIn, nav, loc, indicator)
    ensures match FindSubgoal(len, isIn, nav, indicator - 1, loc)
            case Failure(e) => FindSubgoal(len, isIn, nav, indicator, loc) == Failure(e)
            case Success(back) => FindSubgoal(len, isIn, nav, indicator, loc) == Success(Subgoal(back.target, false))
  {
    var zs := nav.stages[indicator];
    match FindSubgoal(len, isIn, nav, indicator - 1, loc)
    case Failure(e) =>
    case Success(back) => ScanMeetsSpec(len, nav.agentRadius, zs, loc, Some(back.target));
  }

  /** Two tables agree on the stages `0..indicator`. */
  ghost predicate AgreeUpTo(nav: Navigation, nav': Navigation, indicator: int) {
    forall k :: 0 <= k <= indicator ==>
      (k in nav.stages <==> k in nav'.stages) &&
      (k in nav.stages ==> nav.stages[k] == nav'.stages[k])
  }

  /** For a non-negative indicator the stuck recursion only descends, and
      stops at stage 0: the result depends on stages `0..indicator` alone. */
  lemma {:induction false} DependsOnLowerStagesOnly(len: Vec2 -> real, isIn: (Rect, Vec2) -> bool,
                                                    nav: Navigation, nav': Navigation,
                                                    indicator: int, loc: Vec2)
    requires 0 <= indicator
    requires nav.baseZone == nav'.baseZone && nav.agentRadius == nav'.agentRadius
    requires AgreeUpTo(nav, nav', indicator)
    ensures FindSubgoal(len, isIn, nav, indicator, loc) == FindSubgoal(len, isIn, nav', indicator, loc)
    decreases indicator
  {
    if indicator in nav.stages {
      assert indicator in nav'.stages && nav.stages[indicator] == nav'.stages[indicator];
      var zs := nav.stages[indicator];
      if |zs| > 0 && !FullyInside(zs[0], loc, nav.agentRadius) && AmIStuck(isIn, nav, loc, indicator) {
        DependsOnLowerStagesOnly(len, isIn, nav, nav', indicator - 1, loc);
      }
    } else {
      assert indicator !in nav'.stages;
    }
  }
}

=== FILE: wrappers.dfy ===
/** Option and Result, for Python's `None` returns and raised exceptions. */
module Wrappers {

  datatype Option<+T> = None | Some(value: T)

  datatype Result<+R, +E> = Success(value: R) | Failure(error: E)
}
